=== FILE: README.md ===
# Relationship resolution core of friends-management

This project models the part of the friends-management service that decides relationships between
accounts. Accounts can be friends (undirected), can subscribe to another account's updates
(directed), and can block another account's updates (directed). The model covers two layers:

- **The relationship store.** It holds the append-only `relationships` table as a `seq<Edge>`,
  with `Edge(from, to, kind)` and `kind` one of `Friend`, `Subscribe`, `Block`. Its queries are
  comprehensions over that sequence: the three existence checks, the three inserts, the friends of
  a user, the common friends of two users, and the recipients of a sender's update.
- **The engine** (the controller / service layer). It resolves emails through the `users` table,
  asks the store, and then either returns a list or conditionally appends one edge.

All operations are pure functions. A write returns the error it reports, if any, and the edge
sequence afterwards. A read returns a `Result`.

The modules follow the repository's structure:

- `Graph` (`graph.dfy`): the entities and the users table, as a `seq<User>` where `.One()` returns
  the first matching row. It also holds the environment: which user lookups fail, and which store
  calls fail in the database.
- `Wrappers` (`wrappers.dfy`): `Option`, `Result`, and the error values with `errors.Is`.
- `Seqs` (`seqs.dfy`): duplicate-free sequences, and the "append if missing" merge.
- `RelationshipStore` (`store.dfy`): `api/cmd/internal/repository/relationship/relationship_repository.go`.
- `LegacyStore` (`legacy_store.dfy`): the parts of `internal/repositories/relationship_repository.go`
  that differ from the reference store. These are `GetCommonFriends(email_1, email_2)`, the
  recipients query that folds the mentions into the SQL, and `extractMentionedEmails`. Its three
  checks, three inserts and `GetFriends` run the same queries as the reference store. They are
  modelled by the same functions, `RelationshipStore.CheckExists`, `RelationshipStore.InsertEdge`
  and `RelationshipStore.GetFriends`.
- `RelationshipEngine` (`engine.dfy`): `api/cmd/internal/controller/relationship/relationship.go`.
- `ServiceEngine` (`service_engine.dfy`): the two service copies, `internal/services/relationship_service.go`
  and `api/cmd/internal/controller/relationship_service.go`. Their `CreateFriend`, `getUsersByEmails`,
  `GetCommonList`, `Subscribe`, `BlockUpdates` and `GetUpdatableEmailAddresses` are line for line
  the controller's, and are modelled by the `RelationshipEngine` members. Only
  `GetFriendListByEmail` differs, because it skips the user lookup. It has its own member here.
- `EngineInvariants` (`invariants.dfy`): histories of writes, and the concrete scenarios.

I/O is handled through parameters:

- The database's failures are a `Faults` parameter. A user lookup of an email in `faults.lookups`
  returns an error other than `sql.ErrNoRows`. A store call listed in `faults.calls` returns a
  driver error.
- The regular-expression email extractor is not modelled. The engine receives its output, the
  `mentions` sequence, which may contain repeats.
- The request handlers' checks become engine preconditions: exactly two distinct emails, or a
  requestor different from the target. These checks are at
  `api/cmd/internal/handler/rest/relationship_handler.go` lines 30, 77, 99 and 121.

## Model

| member | source | states |
|---|---|---|
| `Graph.GetUserByEmail` | internal/repositories/user_repository.go:49-55 | a lookup either fails, finds no row exactly when no user has the email, or returns a row of the table with that email |
| `Graph.FindRow` | api/cmd/internal/repository/relationship/relationship_repository.go:74-79 | a search of the users table by email or by id finds a row exactly when some row has that key, and the row it returns is a row of the table with that key; the store uses it for `.One()` on `Email.EQ` and on `ID.EQ` (lines 99-101) |
| `RelationshipStore.CheckExists` | api/cmd/internal/repository/relationship/relationship_repository.go:177-202 | with no query error, the check is true iff some edge of that kind has exactly `{a, b}` as its endpoint set; on a query error, the friendship check answers false and the subscription and block checks answer true |
| `RelationshipStore.CheckExistsSymmetric` | api/cmd/internal/repository/relationship/relationship_repository.go:59-70 | every check gives the same answer with its two ids swapped, directed kinds included |
| `RelationshipStore.InsertEdge` | api/cmd/internal/repository/relationship/relationship_repository.go:45-56 | a completed insert appends exactly one edge with the given from, to and kind, and keeps every earlier edge; a failed insert changes nothing |
| `RelationshipStore.FriendIds` | api/cmd/internal/repository/relationship/relationship_repository.go:81-95 | an id is listed iff some Friend edge joins it to the user, in either orientation |
| `RelationshipStore.FriendIdsLength` | api/cmd/internal/repository/relationship/relationship_repository.go:88-95 | the id list has one entry per Friend edge touching the user: nothing is deduplicated |
| `RelationshipStore.FriendIdsCount` | api/cmd/internal/repository/relationship/relationship_repository.go:88-95 | id v occurs once for every Friend edge joining the user and v, so a repeated Friend edge gives a repeated id |
| `RelationshipStore.EmailsByIds` | api/cmd/internal/repository/relationship/relationship_repository.go:97-108 | mapping ids to emails succeeds iff every id has a row; it keeps position i aligned with id i; otherwise it fails with `sql.ErrNoRows` |
| `RelationshipStore.SelectDistinctEmails` | api/cmd/internal/repository/relationship/relationship_repository.go:132-137 | `SELECT DISTINCT u.email` over the rows that pass the filter: no duplicates, and x is selected iff some row that passes has email x |
| `RelationshipStore.GetFriends` | api/cmd/internal/repository/relationship/relationship_repository.go:73-109 | an unknown email is `sql.ErrNoRows`, and a completed query fails with nothing else; every listed email belongs to a friend; the list has one email per Friend edge touching the user, and under unique keys each friend's email occurs once per Friend edge joining the two, so every friend is listed; with foreign keys intact a known email always succeeds |
| `RelationshipStore.FriendsSymmetric` | api/cmd/internal/repository/relationship/relationship_repository.go:88-95 | b's email is in a's friend list iff a's email is in b's |
| `RelationshipStore.GetCommonFriends` | api/cmd/internal/repository/relationship/relationship_repository.go:112-160 | the result has no duplicates, and an email is in it iff it belongs to a user who is a friend of both; a query error is wrapped as "failed to query common friends" |
| `RelationshipStore.CommonFriendsSymmetric` | api/cmd/internal/repository/relationship/relationship_repository.go:113-137 | swapping the two users gives the same set of common friends |
| `RelationshipStore.CommonFriendsIsIntersection` | api/cmd/internal/repository/relationship/relationship_repository.go:132-137 | under unique keys, the common friends are exactly the emails in both users' `GetFriends` lists |
| `RelationshipStore.GetRecipients` | api/cmd/internal/repository/relationship/relationship_repository.go:219-239 | the result has no duplicates; x is in it iff a user with email x is not the sender, is not blocked by the sender, and is a friend of the sender (either orientation) or subscribes to the sender |
| `RelationshipStore.BlockByRecipientIgnored` | api/cmd/internal/repository/relationship/relationship_repository.go:225-227 | adding a Block edge from an account to the sender leaves the sender's recipients unchanged: the block filter is one-directional |
| `RelationshipEngine.GetUsersByEmails` | api/cmd/internal/controller/relationship/relationship.go:89-99 | resolution succeeds iff every email resolves, and returns users aligned with the input; otherwise it fails with "user not found with email X", where X is the first email that does not resolve |
| `RelationshipEngine.ResolvedEmails` | internal/services/relationship_service.go:75-85 | the resolved users' emails are the input emails, in order |
| `RelationshipEngine.CreateFriend` | api/cmd/internal/controller/relationship/relationship.go:43-67 | an error writes nothing; a success means both emails resolved, no friendship or block linked the pair, and exactly `Edge(users[0].id, users[1].id, Friend)` was appended |
| `RelationshipEngine.CreateFriendResolvesInOrder` | api/cmd/internal/controller/relationship/relationship.go:44-47 | an unresolved first email is reported before the second; either way nothing is written |
| `RelationshipEngine.CreateFriendCheckErrors` | api/cmd/internal/controller/relationship/relationship.go:48-60 | once both emails resolve, a failed friendship check is wrapped as "failed to check friendship exist"; with no friendship, a failed block check is wrapped as "failed to check blocking updates exist"; neither writes anything |
| `RelationshipEngine.CreateFriendConflicts` | api/cmd/internal/controller/relationship/relationship.go:53-66 | once both emails resolve and the checks complete: an existing friendship is reported before an existing block; a block in either direction vetoes the friendship; with neither, a failed insert returns its error and writes nothing, and otherwise exactly one Friend edge is appended |
| `RelationshipEngine.GetFriendListByEmail` | api/cmd/internal/controller/relationship/relationship.go:71-85 | an unresolved user is NotFound; once the user resolves, the call succeeds whenever the friends query completes, the store's `sql.ErrNoRows` becomes the empty list, and a store list is returned unchanged, repeats included (so each friend's email occurs once per Friend edge, as `RelationshipStore.GetFriends` states); every other store error is wrapped as "failed to retrieve friends"; listed emails are friends, and all friends are listed when the data is consistent |
| `RelationshipEngine.GetCommonList` | api/cmd/internal/controller/relationship/relationship.go:103-113 | resolution errors name the first unresolved email; once both resolve, the call succeeds iff the common-friends query completes, and a failed query returns "failed to query common friends"; the result has no duplicates and holds exactly the common friends of the two resolved users |
| `RelationshipEngine.ResolveParty` | api/cmd/internal/controller/relationship/relationship.go:118-132 | a NoRows lookup gives the bad request "requestor/target not found"; any other lookup error is wrapped as "failed to retrieve requestor/target" |
| `RelationshipEngine.Relate` | api/cmd/internal/controller/relationship/relationship.go:117-173 | an error writes nothing; the request succeeds iff both parties resolve, the check completes, no edge of that kind links them in either orientation, and the insert completes; a success appends exactly the requestor→target edge |
| `RelationshipEngine.RelateErrors` | internal/services/relationship_service.go:99-153 | requests fail in this order: requestor lookup, target lookup, check error, then "... already exists between R and T", then a failed insert, whose error is returned as it is; each of these leaves the edges unchanged; with none of them, the requestor→target edge is appended |
| `RelationshipEngine.Subscribe` | api/cmd/internal/controller/relationship/relationship.go:117-143 | succeeds iff both parties resolve, the subscription check completes, no Subscribe edge links them, and the insert completes; a success appends exactly `Edge(requestor, target, Subscribe)` and keeps the earlier edges; an error writes nothing |
| `RelationshipEngine.BlockUpdates` | api/cmd/internal/controller/relationship/relationship.go:147-173 | succeeds iff both parties resolve, the block check completes, no Block edge links them, and the insert completes; a success appends exactly `Edge(requestor, target, Block)` and keeps the earlier edges; an error writes nothing |
| `RelationshipEngine.GetUpdatableEmailAddresses` | api/cmd/internal/controller/relationship/relationship.go:177-203 | a missing sender is "sender not found", and any other sender lookup error is wrapped; once the sender and every mention resolve, the call succeeds iff the store query completes, and a failed query passes "failed to get recipients" through; a success means every mention resolved; the store's list is a prefix of the result; the result is exactly the store's list plus the mentions, with no duplicates |
| `RelationshipEngine.UnresolvedMentionFails` | api/cmd/internal/controller/relationship/relationship.go:186-190 | one unresolved mention fails the whole request; the error names a mention that does not resolve, and every mention before it resolves, so it is the first unresolved one; no list is returned |
| `RelationshipEngine.EveryMentionIsRecipient` | api/cmd/internal/controller/relationship/relationship.go:186-201 | once the sender and every mention resolve and the store query completes, every mentioned address is a recipient, whatever the stored edges, blocks included |
| `RelationshipEngine.MentionBeatsBlock` | api/cmd/internal/controller/relationship_service.go:192-197 | a mentioned account is a recipient even when the sender blocked it |
| `Seqs.AppendMissing` | api/cmd/internal/controller/relationship/relationship.go:197-201 | the merge keeps the accumulated list as a prefix; x ends up in the result iff it was already there or is one of the added items; a duplicate-free list stays duplicate-free |
| `ServiceEngine.GetFriendListByEmail` | internal/services/relationship_service.go:63-73 | the call succeeds whenever the friends query completes: the store's `sql.ErrNoRows`, which an unregistered email or a dangling friend id produces, becomes the empty list rather than an error; a store list is returned unchanged; a store failure is wrapped as "failed to retrieve friends"; a non-empty list holds only friends of the registered user |
| `ServiceEngine.AgreesWithControllerOnResolvedUsers` | api/cmd/internal/controller/relationship_service.go:70-80 | for an email that resolves, the service copy and the controller return the same list or error |
| `ServiceEngine.DiffersFromControllerOnUnknownUsers` | internal/repositories/relationship_repository.go:71-76 | for an unregistered email the service answers with an empty list, while the controller answers NotFound |
| `LegacyStore.GetCommonFriendsByEmail` | internal/repositories/relationship_repository.go:108-166 | an unresolved first email is reported before the second, as a bad request; once both resolve, the call succeeds iff the query completes, and a failed query returns "failed to query common friends"; a success has no duplicates and holds exactly the common friends |
| `LegacyStore.ExtractMentionedEmails` | internal/repositories/relationship_repository.go:250-263 | the result has no duplicates and the same elements as the regular-expression matches |
| `LegacyStore.GetUpdatableEmailAddresses` | internal/repositories/relationship_repository.go:220-248 | no mention is a panic; with a mention, the query succeeds iff it completes, and x is a recipient iff a user with email x is not the sender, is not blocked by the sender (when the `'block'` literal is live), and is a friend, a subscriber, or mentioned; no duplicates |
| `LegacyStore.NoMentionPanics` | internal/repositories/relationship_repository.go:234 | as written, a text with no address panics in `strings.Repeat`; the corrected query does not |
| `LegacyStore.GetUpdatableEmailAddressesFixed` | internal/repositories/relationship_repository.go:227-235 | the corrected query fails only on a database error, and has the same membership characterization as the written query |
| `LegacyStore.FixedRefinesWritten` | internal/repositories/relationship_repository.go:230-234 | the corrected query equals the written one whenever there is a mention, whether or not the `'block'` literal is live; with no mention it equals the reference store's recipients query |
| `LegacyStore.MentionsAreFiltered` | internal/repositories/relationship_repository.go:230-234 | under unique keys and whatever the `'block'` literal: the sender is never a recipient, and an unregistered mention is silently absent and is not an error; when the literal is live, a mention the sender blocked is excluded |
| `LegacyStore.DeadBlockLiteralLeaksBlockedFriend` | internal/repositories/relationship_repository.go:233 | when the `'block'` literal does not match the stored Block tag, an account the sender both befriended and blocked still receives the sender's updates, for any tables and any non-empty mentions |
| `EngineInvariants.Apply` | api/cmd/internal/controller/relationship/relationship.go:43-173 | a failed write changes nothing; a successful write appends one edge, between two rows of the users table, whose kind was not yet linked between that pair in either orientation |
| `EngineInvariants.Run` | api/cmd/internal/controller/relationship/relationship.go:43-173 | any history of writes only appends: the starting edges are a prefix of the final ones |
| `EngineInvariants.RunKeepsUniquePairs` | api/cmd/internal/controller/relationship/relationship.go:48-172 | under any faults, every history of writes keeps at most one edge of each kind for each unordered pair |
| `EngineInvariants.FriendshipThenBlockCoexist` | api/cmd/internal/controller/relationship/relationship.go:164-172 | a block made after a friendship succeeds, and both edges remain stored |
| `EngineInvariants.BlockVetoesLaterFriendship` | api/cmd/internal/controller/relationship/relationship.go:57-64 | after `BlockUpdates(a, b)` succeeds, whatever writes follow, `CreateFriend` of a and b fails in both email orders |
| `EngineInvariants.FriendshipIsCreatedOnce` | api/cmd/internal/controller/relationship/relationship.go:48-55 | after `CreateFriend(a, b)` succeeds, whatever writes follow, a second `CreateFriend` fails in both email orders |
| `EngineInvariants.FriendshipVisibleBothWays` | api/cmd/internal/repository/relationship/relationship_repository.go:81-95 | after `CreateFriend(a, b)` succeeds, from then on b is in a's friend list and a is in b's |
| `EngineInvariants.MentionedRecipientOnce` | api/cmd/internal/controller/relationship/relationship.go:197-201 | a mentioned address occurs exactly once in the recipients, even if the text repeats it or the store already lists it |
| `EngineInvariants.AliceBefriendsBob` | api/cmd/internal/controller/relationship/relationship_test.go:40-57 | alice befriends bob; alice's friend list is `["bob@x.com"]`; a second request is refused with "friendship already exists between alice@x.com and bob@x.com" |
| `EngineInvariants.SubscriberAlsoMentioned` | api/cmd/internal/controller/relationship/relationship_test.go:314-323 | dave subscribes to alice and alice mentions dave; dave is a recipient exactly once |

## Left out

- HTTP handlers, routing, dependency wiring, JSON decoding and the response envelopes: these are
  transport plumbing. The only parts kept are the handlers' two-distinct-emails checks, which
  become preconditions.
- DTO validation: it delegates to an external validator library.
- The email regular expression (`GetEmailFromText`, and the match step of `extractMentionedEmails`):
  a library call. The matches are a parameter.
- The user directory's implementation: the api tree's user repository is not part of this model.
  Lookups follow `internal/repositories/user_repository.go`. Database failures are the `Faults`
  parameter.
- Concurrency: the check-then-insert race is not modelled. Every operation is one atomic step, so
  the uniqueness invariant holds only for sequential histories.
- Row ids (uuids), timestamps and `fmt.Println(emails)` in the legacy recipients query: none of
  them affects a rule.
- `repository/relationship_repository.go`: an incomplete stub that does not implement its own
  interface.
- Result order: the SQL queries have no `ORDER BY`, and the legacy `extractMentionedEmails`
  iterates a Go map. The model uses table order and first-occurrence order. No property depends
  on order except those about the controller's own append loop.
- The stored tag of each kind: the `constants` values are not shown. Both recipients queries,
  the reference one and the legacy one (internal/repositories/relationship_repository.go lines
  232 and 234), compare with the literals `'Friend'` and `'Subscribe'`, and the model assumes
  both match the stored tags. Only the legacy query's `'block'` literal is a parameter,
  `blockLiteralMatches`.
- Error texts: errors are structured values, and message strings are compared rather than
  rendered. Examples are `BadRequest(msg)` for the 400 errors, `Wrapped` for `%w`, and
  `Annotated` for `%v`.
- `RelationshipStore.GetCommonFriends`: the query's failure is modelled, but the two later error
  returns, "failed to scan email" and "row iteration error", are not. They come from reading the
  result rows, which the model does not represent as a separate step.
- `LegacyStore.GetCommonFriendsByEmail`: the same two row-reading errors are not modelled, for the
  same reason.
- `RelationshipStore.GetFriends`: a single fault flag covers all of its queries, so a failure
  part-way through the per-friend lookups is not distinguished from a failure of the first query.

## Findings

| source | as written | input that shows it | evidently intended | confidence | as-written member | corrected member |
|---|---|---|---|---|---|---|
| internal/repositories/relationship_repository.go:234 | the placeholder list is `strings.Repeat("?,", len(mentionedEmails)-1) + "?"` | a text with no email address: the count is -1, so `strings.Repeat` panics before the query runs | with no mentions, the mention clause is dropped and the sender's friends and subscribers are returned | high; not executed | `LegacyStore.NoMentionPanics` | `LegacyStore.GetUpdatableEmailAddressesFixed` |

In the controller path, `GetEmailFromText` returns every regular-expression match, repeats
included. The engine's merge loop is therefore what keeps the recipient list free of duplicates
(`EngineInvariants.MentionedRecipientOnce`).

How the engine reports an email that does not resolve:

- `GetFriendListByEmail` answers NotFound for any lookup error.
- `getUsersByEmails` turns any lookup error into the 400 `BadRequest`. This covers both members of
  an email pair and the mentions.
- For the sender, the requestor and the target, `sql.ErrNoRows` is the 400 `BadRequest`. Any
  other lookup error is wrapped as "failed to retrieve requestor" or "failed to retrieve target"
  (`relationship.go` lines 123, 131 and 183; the sender's wrap also says "requestor").

=== FILE: engine.dfy ===
/** The relationship controller: resolves emails through the users table, consults the store,
    and conditionally appends one edge. Stateless apart from the edges it is given. */
module RelationshipEngine {
  import opened Wrappers
  import opened Seqs
  import opened Graph
  import opened RelationshipStore

  /** The database the engine reads: the users table and the relationships table. */
  datatype Db = Db(users: seq<User>, edges: seq<Edge>)

  /** `getUsersByEmails`: resolves the emails in input order and stops at the first one that
      does not resolve, whatever the lookup error was. */
  function GetUsersByEmails(users: seq<User>, faults: Faults, emails: seq<string>): (r: Result<seq<User>, Error>)
    ensures r.Success? <==> forall i :: 0 <= i < |emails| ==> Resolves(users, faults, emails[i])
    ensures r.Success? ==> |r.value| == |emails|
    ensures r.Success? ==> forall i :: 0 <= i < |emails| ==> GetUserByEmail(users, faults, emails[i]) == Found(r.value[i])
    ensures r.Failure? ==> exists i :: (0 <= i < |emails|
      && !Resolves(users, faults, emails[i])
      && (forall j :: 0 <= j < i ==> Resolves(users, faults, emails[j]))
      && r.error == BadRequest("user not found with email " + emails[i]))
    decreases |emails|
  {
    if |emails| == 0 then Success([])
    else match GetUserByEmail(users, faults, emails[0])
      case Found(u) =>
        (match GetUsersByEmails(users, faults, emails[1..])
         case Failure(e) =>
           assert forall i :: 1 <= i < |emails| ==> emails[i] == emails[1..][i - 1];
           var k :| 0 <= k < |emails[1..]|
             && !Resolves(users, faults, emails[1..][k])
             && (forall j :: 0 <= j < k ==> Resolves(users, faults, emails[1..][j]))
             && e == BadRequest("user not found with email " + emails[1..][k]);
           assert !Resolves(users, faults, emails[k + 1]);
           Failure(e)
         case Success(rest) =>
           assert forall i :: 1 <= i < |emails| ==> emails[i] == emails[1..][i - 1];
           Success([u] + rest))
      case _ => Failure(BadRequest("user not found with email " + emails[0]))
  }

  /** The emails of resolved users, in order. */
  function EmailsOfUsers(us: seq<User>): (r: seq<string>)
    ensures |r| == |us|
    ensures forall i :: 0 <= i < |us| ==> r[i] == us[i].email
  {
    if |us| == 0 then [] else [us[0].email] + EmailsOfUsers(us[1..])
  }

  /** Resolution preserves the emails it was given. */
  lemma ResolvedEmails(users: seq<User>, faults: Faults, emails: seq<string>)
    requires GetUsersByEmails(users, faults, emails).Success?
    ensures EmailsOfUsers(GetUsersByEmails(users, faults, emails).value) == emails
  {
    var us := GetUsersByEmails(users, faults, emails).value;
    forall i | 0 <= i < |emails|
      ensures us[i].email == emails[i]
    {
      assert GetUserByEmail(users, faults, emails[i]) == Found(us[i]);
    }
  }

  // ---------------------------------------------------------------- friendship

  /** `CreateFriend([e0, e1])`. The request handler admits exactly two distinct emails. */
  function CreateFriend(db: Db, faults: Faults, emails: seq<string>): (r: Written)
    requires |emails| == 2 && emails[0] != emails[1]
    ensures r.err.Some? ==> r.edges == db.edges
    ensures r.err.None? ==>
      && Resolves(db.users, faults, emails[0])
      && Resolves(db.users, faults, emails[1])
      && var a := GetUserByEmail(db.users, faults, emails[0]).user;
      && var b := GetUserByEmail(db.users, faults, emails[1]).user;
      && !Linked(db.edges, Friend, a.id, b.id)
      && !Linked(db.edges, Block, a.id, b.id)
      && r.edges == db.edges + [Edge(a.id, b.id, Friend)]
  {
    match GetUsersByEmails(db.users, faults, emails)
    case Failure(e) => Written(Some(e), db.edges)
    case Success(us) =>
      var a := us[0];
      var b := us[1];
      var friendship := CheckExists(db.edges, Friend, a.id, b.id, IoOf(faults, FriendshipCheck));
      if friendship.err.Some? then
        Written(Some(Wrapped("failed to check friendship exist", friendship.err.value)), db.edges)
      else if friendship.found then
        Written(Some(BadRequest("friendship already exists between " + a.email + " and " + b.email)), db.edges)
      else
        var block := CheckExists(db.edges, Block, a.id, b.id, IoOf(faults, BlockCheck));
        if block.err.Some? then
          Written(Some(Wrapped("failed to check blocking updates exist", block.err.value)), db.edges)
        else if block.found then
          Written(Some(BadRequest("blocking updates exists between " + a.email + " and " + b.email)), db.edges)
        else
          InsertEdge(db.edges, a.id, b.id, Friend, IoOf(faults, EdgeInsert))
  }

  /** Resolution comes first, in input order: an unresolved email is reported by name and
      nothing is written. */
  lemma CreateFriendResolvesInOrder(db: Db, faults: Faults, emails: seq<string>)
    requires |emails| == 2 && emails[0] != emails[1]
    ensures !Resolves(db.users, faults, emails[0]) ==>
      CreateFriend(db, faults, emails) == Written(Some(BadRequest("user not found with email " + emails[0])), db.edges)
    ensures Resolves(db.users, faults, emails[0]) && !Resolves(db.users, faults, emails[1]) ==>
      CreateFriend(db, faults, emails) == Written(Some(BadRequest("user not found with email " + emails[1])), db.edges)
  {
  }

  /** Once both emails resolve, a failed friendship check is reported first, and a failed
      block check once no friendship exists; both are wrapped and write nothing. */
  lemma CreateFriendCheckErrors(db: Db, faults: Faults, emails: seq<string>, a: User, b: User)
    requires |emails| == 2 && emails[0] != emails[1]
    requires GetUserByEmail(db.users, faults, emails[0]) == Found(a)
    requires GetUserByEmail(db.users, faults, emails[1]) == Found(b)
    ensures FriendshipCheck in faults.calls ==>
      CreateFriend(db, faults, emails) == Written(Some(Wrapped("failed to check friendship exist", DbFailure)), db.edges)
    ensures (FriendshipCheck !in faults.calls && !Linked(db.edges, Friend, a.id, b.id) && BlockCheck in faults.calls) ==>
      CreateFriend(db, faults, emails) == Written(Some(Wrapped("failed to check blocking updates exist", DbFailure)), db.edges)
  {
  }

  /** With both checks completing, an existing friendship is reported before an existing block,
      a block in either direction vetoes the friendship, and only then is the edge inserted; a
      failed insert is returned as it is. */
  lemma CreateFriendConflicts(db: Db, faults: Faults, emails: seq<string>, a: User, b: User)
    requires |emails| == 2 && emails[0] != emails[1]
    requires GetUserByEmail(db.users, faults, emails[0]) == Found(a)
    requires GetUserByEmail(db.users, faults, emails[1]) == Found(b)
    ensures FriendshipCheck !in faults.calls && Linked(db.edges, Friend, a.id, b.id) ==>
      CreateFriend(db, faults, emails)
        == Written(Some(BadRequest("friendship already exists between " + emails[0] + " and " + emails[1])), db.edges)
    ensures (FriendshipCheck !in faults.calls && !Linked(db.edges, Friend, a.id, b.id)
      && Linked(db.edges, Block, a.id, b.id) && BlockCheck !in faults.calls) ==>
      CreateFriend(db, faults, emails)
        == Written(Some(BadRequest("blocking updates exists between " + emails[0] + " and " + emails[1])), db.edges)
    ensures (FriendshipCheck !in faults.calls && !Linked(db.edges, Friend, a.id, b.id) && !Linked(db.edges, Block, a.id, b.id)
      && BlockCheck !in faults.calls) ==>
      CreateFriend(db, faults, emails) == (
        if EdgeInsert in faults.calls then Written(Some(DbFailure), db.edges)
        else Written(None, db.edges + [Edge(a.id, b.id, Friend)]))
  {
  }

  /** `GetFriendListByEmail`: any lookup error is NotFound; the store's `sql.ErrNoRows` is an
      empty list; any other store error is wrapped; the store's list is returned unchanged,
      repeats included. */
  function GetFriendListByEmail(db: Db, faults: Faults, email: string): (r: Result<seq<string>, Error>)
    ensures !Resolves(db.users, faults, email) ==> r == Failure(NotFound("user not found with email " + email))
    ensures Resolves(db.users, faults, email) && FriendsQuery in faults.calls ==>
      r == Failure(Wrapped("failed to retrieve friends", DbFailure))
    ensures Resolves(db.users, faults, email) && r.Failure? ==> r.error == Wrapped("failed to retrieve friends", DbFailure)
    ensures Resolves(db.users, faults, email) && FriendsQuery !in faults.calls ==> r.Success?
    ensures (Resolves(db.users, faults, email)
      && GetFriends(db.users, db.edges, email, IoOf(faults, FriendsQuery)) == Failure(NoRows)) ==> r == Success([])
    ensures Resolves(db.users, faults, email) && GetFriends(db.users, db.edges, email, IoOf(faults, FriendsQuery)).Success? ==>
      r == GetFriends(db.users, db.edges, email, IoOf(faults, FriendsQuery))
    ensures r.Success? && Resolves(db.users, faults, email) ==> forall x :: x in r.value ==>
      exists v :: v in db.users && v.email == x
        && Linked(db.edges, Friend, GetUserByEmail(db.users, faults, email).user.id, v.id)
    ensures (Resolves(db.users, faults, email) && FriendsQuery !in faults.calls
      && Referential(db.users, db.edges) && ValidUsers(db.users)) ==>
      r.Success? && forall v :: v in db.users && Linked(db.edges, Friend, GetUserByEmail(db.users, faults, email).user.id, v.id) ==>
        v.email in r.value
  {
    match GetUserByEmail(db.users, faults, email)
    case Found(u) =>
      (match GetFriends(db.users, db.edges, u.email, IoOf(faults, FriendsQuery))
       case Success(friends) => Success(friends)
       case Failure(e) =>
         if Is(e, NoRows) then Success([])
         else Failure(Wrapped("failed to retrieve friends", e)))
    case _ => Failure(NotFound("user not found with email " + email))
  }

  /** `GetCommonList([e0, e1])`: resolve both, then the store's common friends. */
  function GetCommonList(db: Db, faults: Faults, emails: seq<string>): (r: Result<seq<string>, Error>)
    requires |emails| == 2 && emails[0] != emails[1]
    ensures !Resolves(db.users, faults, emails[0]) ==>
      r == Failure(BadRequest("user not found with email " + emails[0]))
    ensures Resolves(db.users, faults, emails[0]) && !Resolves(db.users, faults, emails[1]) ==>
      r == Failure(BadRequest("user not found with email " + emails[1]))
    ensures Resolves(db.users, faults, emails[0]) && Resolves(db.users, faults, emails[1]) ==>
      (r.Success? <==> CommonFriendsQuery !in faults.calls)
    ensures Resolves(db.users, faults, emails[0]) && Resolves(db.users, faults, emails[1]) && CommonFriendsQuery in faults.calls ==>
      r == Failure(Wrapped("failed to query common friends", DbFailure))
    ensures r.Success? ==> NoDup(r.value)
    ensures r.Success? ==>
      && Resolves(db.users, faults, emails[0]) && Resolves(db.users, faults, emails[1])
      && var a := GetUserByEmail(db.users, faults, emails[0]).user;
      && var b := GetUserByEmail(db.users, faults, emails[1]).user;
      && forall x :: x in r.value <==>
        exists u :: u in db.users && u.email == x && Linked(db.edges, Friend, a.id, u.id) && Linked(db.edges, Friend, b.id, u.id)
  {
    match GetUsersByEmails(db.users, faults, emails)
    case Failure(e) => Failure(e)
    case Success(us) => GetCommonFriends(db.users, db.edges, us[0].id, us[1].id, IoOf(faults, CommonFriendsQuery))
  }

  // ---------------------------------------------------------------- directed relations

  /** The store call that checks for an existing edge of a directed kind. */
  function CheckCall(kind: Kind): Call
    requires kind != Friend
  {
    if kind == Kind.Subscribe then SubscriptionCheck else BlockCheck
  }

  /** The context a failed existence check is wrapped in, spelled as in the Go code. */
  function CheckContext(kind: Kind): string
    requires kind != Friend
  {
    if kind == Kind.Subscribe then "failed to check subcription exist" else "failed to check blocking updates exist"
  }

  /** The name of the relation in an "already exists" message. */
  function Label(kind: Kind): string
    requires kind != Friend
  {
    if kind == Kind.Subscribe then "subscription" else "blocking updates"
  }

  /** The two parties of a directed request. */
  datatype Role = Requestor | Target

  function NotFoundMessage(role: Role): string
  {
    if role == Requestor then "requestor not found" else "target not found"
  }

  function RetrieveContext(role: Role): string
  {
    if role == Requestor then "failed to retrieve requestor" else "failed to retrieve target"
  }

  /** Resolves one party of a directed request: `sql.ErrNoRows` is a bad request, any other
      lookup error is wrapped. */
  function ResolveParty(users: seq<User>, faults: Faults, email: string, role: Role): (r: Result<User, Error>)
    ensures r.Success? <==> Resolves(users, faults, email)
    ensures r.Success? ==> r.value == GetUserByEmail(users, faults, email).user
    ensures GetUserByEmail(users, faults, email).NoRowsFound? ==> r == Failure(BadRequest(NotFoundMessage(role)))
    ensures GetUserByEmail(users, faults, email).LookupFailed? ==> r == Failure(Wrapped(RetrieveContext(role), DbFailure))
  {
    match GetUserByEmail(users, faults, email)
    case Found(u) => Success(u)
    case NoRowsFound => Failure(BadRequest(NotFoundMessage(role)))
    case LookupFailed => Failure(Wrapped(RetrieveContext(role), DbFailure))
  }

  /** The shared body of `Subscribe` and `BlockUpdates`. */
  function Relate(kind: Kind, db: Db, faults: Faults, requestor: string, target: string): (r: Written)
    requires kind != Friend
    ensures r.err.Some? ==> r.edges == db.edges
    ensures r.err.None? ==>
      && Resolves(db.users, faults, requestor)
      && Resolves(db.users, faults, target)
      && var req := GetUserByEmail(db.users, faults, requestor).user;
      && var tgt := GetUserByEmail(db.users, faults, target).user;
      && !Linked(db.edges, kind, req.id, tgt.id)
      && r.edges == db.edges + [Edge(req.id, tgt.id, kind)]
    ensures r.err.None? <==>
      && Resolves(db.users, faults, requestor)
      && Resolves(db.users, faults, target)
      && CheckCall(kind) !in faults.calls
      && !Linked(db.edges, kind, GetUserByEmail(db.users, faults, requestor).user.id, GetUserByEmail(db.users, faults, target).user.id)
      && EdgeInsert !in faults.calls
  {
    match ResolveParty(db.users, faults, requestor, Requestor)
    case Failure(e) => Written(Some(e), db.edges)
    case Success(req) =>
      match ResolveParty(db.users, faults, target, Target)
      case Failure(e) => Written(Some(e), db.edges)
      case Success(tgt) =>
        var check := CheckExists(db.edges, kind, req.id, tgt.id, IoOf(faults, CheckCall(kind)));
        if check.err.Some? then
          Written(Some(Wrapped(CheckContext(kind), check.err.value)), db.edges)
        else if check.found then
          Written(Some(BadRequest(Label(kind) + " already exists between " + req.email + " and " + tgt.email)), db.edges)
        else
          InsertEdge(db.edges, req.id, tgt.id, kind, IoOf(faults, EdgeInsert))
  }

  /** The order in which a directed request fails: requestor lookup, target lookup, the
      existence check (in both orientations), and only then the insert. */
  lemma RelateErrors(kind: Kind, db: Db, faults: Faults, requestor: string, target: string)
    requires kind != Friend
    ensures GetUserByEmail(db.users, faults, requestor).NoRowsFound? ==>
      Relate(kind, db, faults, requestor, target) == Written(Some(BadRequest("requestor not found")), db.edges)
    ensures GetUserByEmail(db.users, faults, requestor).LookupFailed? ==>
      Relate(kind, db, faults, requestor, target) == Written(Some(Wrapped("failed to retrieve requestor", DbFailure)), db.edges)
    ensures Resolves(db.users, faults, requestor) && GetUserByEmail(db.users, faults, target).NoRowsFound? ==>
      Relate(kind, db, faults, requestor, target) == Written(Some(BadRequest("target not found")), db.edges)
    ensures Resolves(db.users, faults, requestor) && GetUserByEmail(db.users, faults, target).LookupFailed? ==>
      Relate(kind, db, faults, requestor, target) == Written(Some(Wrapped("failed to retrieve target", DbFailure)), db.edges)
    ensures Resolves(db.users, faults, requestor) && Resolves(db.users, faults, target) && CheckCall(kind) in faults.calls ==>
      Relate(kind, db, faults, requestor, target) == Written(Some(Wrapped(CheckContext(kind), DbFailure)), db.edges)
    ensures (Resolves(db.users, faults, requestor) && Resolves(db.users, faults, target) && CheckCall(kind) !in faults.calls
      && Linked(db.edges, kind, GetUserByEmail(db.users, faults, requestor).user.id, GetUserByEmail(db.users, faults, target).user.id)) ==>
      Relate(kind, db, faults, requestor, target)
        == Written(Some(BadRequest(Label(kind) + " already exists between " + requestor + " and " + target)), db.edges)
    ensures (Resolves(db.users, faults, requestor) && Resolves(db.users, faults, target) && CheckCall(kind) !in faults.calls
      && !Linked(db.edges, kind, GetUserByEmail(db.users, faults, requestor).user.id, GetUserByEmail(db.users, faults, target).user.id)) ==>
      Relate(kind, db, faults, requestor, target) == (
        if EdgeInsert in faults.calls then Written(Some(DbFailure), db.edges)
        else Written(None, db.edges + [Edge(GetUserByEmail(db.users, faults, requestor).user.id,
                                            GetUserByEmail(db.users, faults, target).user.id, kind)]))
  {
  }

  /** `Subscribe`: the requestor subscribes to the target's updates. */
  function Subscribe(db: Db, faults: Faults, requestor: string, target: string): (r: Written)
    requires requestor != target
    ensures r.err.Some? ==> r.edges == db.edges
    ensures r.err.None? ==> |r.edges| == |db.edges| + 1 && r.edges[..|db.edges|] == db.edges
    ensures r.err.None? ==> Resolves(db.users, faults, requestor) && Resolves(db.users, faults, target)
    ensures r.err.None? ==> r.edges[|db.edges|] == Edge(
      GetUserByEmail(db.users, faults, requestor).user.id, GetUserByEmail(db.users, faults, target).user.id, Kind.Subscribe)
    ensures r.err.None? <==>
      && Resolves(db.users, faults, requestor)
      && Resolves(db.users, faults, target)
      && SubscriptionCheck !in faults.calls
      && !Linked(db.edges, Kind.Subscribe, GetUserByEmail(db.users, faults, requestor).user.id, GetUserByEmail(db.users, faults, target).user.id)
      && EdgeInsert !in faults.calls
  {
    Relate(Kind.Subscribe, db, faults, requestor, target)
  }

  /** `BlockUpdates`: the requestor blocks the target's updates. */
  function BlockUpdates(db: Db, faults: Faults, requestor: string, target: string): (r: Written)
    requires requestor != target
    ensures r.err.Some? ==> r.edges == db.edges
    ensures r.err.None? ==> |r.edges| == |db.edges| + 1 && r.edges[..|db.edges|] == db.edges
    ensures r.err.None? ==> Resolves(db.users, faults, requestor) && Resolves(db.users, faults, target)
    ensures r.err.None? ==> r.edges[|db.edges|] == Edge(
      GetUserByEmail(db.users, faults, requestor).user.id, GetUserByEmail(db.users, faults, target).user.id, Block)
    ensures r.err.None? <==>
      && Resolves(db.users, faults, requestor)
      && Resolves(db.users, faults, target)
      && BlockCheck !in faults.calls
      && !Linked(db.edges, Block, GetUserByEmail(db.users, faults, requestor).user.id, GetUserByEmail(db.users, faults, target).user.id)
      && EdgeInsert !in faults.calls
  {
    Relate(Block, db, faults, requestor, target)
  }

  // ---------------------------------------------------------------- recipients

  /** `GetUpdatableEmailAddresses(sender, text)`, `mentions` being what the email extractor
      found in `text`, repetitions included. */
  function GetUpdatableEmailAddresses(db: Db, faults: Faults, sender: string, mentions: seq<string>): (r: Result<seq<string>, Error>)
    ensures GetUserByEmail(db.users, faults, sender).NoRowsFound? ==> r == Failure(BadRequest("sender not found"))
    ensures GetUserByEmail(db.users, faults, sender).LookupFailed? ==>
      r == Failure(Wrapped("failed to retrieve requestor", DbFailure))
    ensures r.Success? ==> Resolves(db.users, faults, sender)
    ensures r.Success? ==> forall i :: 0 <= i < |mentions| ==> Resolves(db.users, faults, mentions[i])
    ensures r.Success? ==>
      var store := GetRecipients(db.users, db.edges, GetUserByEmail(db.users, faults, sender).user.id, IoOf(faults, RecipientsQuery));
      && store.Success?
      && store.value <= r.value
      && (forall x :: x in r.value <==> x in store.value || x in mentions)
    ensures r.Success? ==> NoDup(r.value)
    ensures Resolves(db.users, faults, sender) && (forall i :: 0 <= i < |mentions| ==> Resolves(db.users, faults, mentions[i])) ==>
      (r.Success? <==> RecipientsQuery !in faults.calls)
    ensures (Resolves(db.users, faults, sender) && (forall i :: 0 <= i < |mentions| ==> Resolves(db.users, faults, mentions[i]))
      && RecipientsQuery in faults.calls) ==> r == Failure(Annotated("failed to get recipients", DbFailure))
  {
    match GetUserByEmail(db.users, faults, sender)
    case NoRowsFound => Failure(BadRequest("sender not found"))
    case LookupFailed => Failure(Wrapped("failed to retrieve requestor", DbFailure))
    case Found(s) =>
      match GetUsersByEmails(db.users, faults, mentions)
      case Failure(e) => Failure(e)
      case Success(us) =>
        match GetRecipients(db.users, db.edges, s.id, IoOf(faults, RecipientsQuery))
        case Failure(e) => Failure(e)
        case Success(recipients) =>
          ResolvedEmails(db.users, faults, mentions);
          Success(AppendMissing(recipients, EmailsOfUsers(us)))
  }

  /** Mention resolution is all-or-nothing: one unregistered mention fails the whole request
      with the first such address named, and no list is returned. */
  lemma UnresolvedMentionFails(db: Db, faults: Faults, sender: string, mentions: seq<string>, i: nat)
    requires Resolves(db.users, faults, sender)
    requires i < |mentions| && !Resolves(db.users, faults, mentions[i])
    ensures GetUpdatableEmailAddresses(db, faults, sender, mentions).Failure?
    ensures exists k :: (0 <= k <= i
      && !Resolves(db.users, faults, mentions[k])
      && (forall j :: 0 <= j < k ==> Resolves(db.users, faults, mentions[j]))
      && GetUpdatableEmailAddresses(db, faults, sender, mentions) == Failure(BadRequest("user not found with email " + mentions[k])))
  {
  }

  /** Once the sender and every mention resolve and the store query completes, every mentioned
      address is a recipient, whatever edges the store holds, blocks included. */
  lemma EveryMentionIsRecipient(db: Db, faults: Faults, sender: string, mentions: seq<string>, i: nat)
    requires Resolves(db.users, faults, sender)
    requires forall j :: 0 <= j < |mentions| ==> Resolves(db.users, faults, mentions[j])
    requires RecipientsQuery !in faults.calls
    requires i < |mentions|
    ensures GetUpdatableEmailAddresses(db, faults, sender, mentions).Success?
    ensures mentions[i] in GetUpdatableEmailAddresses(db, faults, sender, mentions).value
  {
  }

  /** Every mention of a registered account is a recipient, even one the sender has blocked. */
  lemma MentionBeatsBlock(db: Db, sender: User, mentioned: User)
    requires ValidUsers(db.users)
    requires sender in db.users && mentioned in db.users
    requires Directed(db.edges, Block, sender.id, mentioned.id)
    ensures GetUpdatableEmailAddresses(db, Faults({}, {}), sender.email, [mentioned.email]).Success?
    ensures mentioned.email in GetUpdatableEmailAddresses(db, Faults({}, {}), sender.email, [mentioned.email]).value
  {
    FindByEmailOfRow(db.users, sender);
    FindByEmailOfRow(db.users, mentioned);
  }
}

=== FILE: graph.dfy ===
/** The data the relationship core works on: accounts, relation edges, the users table,
    and the environment's faults (which database round trips fail). */
module Graph {
  import opened Wrappers

  type Id = string

  datatype Kind = Friend | Subscribe | Block

  /** A row of the `relationships` table: `requestor_id`, `target_id`, `relationship_type`.
      The row's uuid and timestamps play no part in any rule and are not modelled. */
  datatype Edge = Edge(from: Id, to: Id, kind: Kind)

  /** A row of the `users` table. */
  datatype User = User(id: Id, email: string)

  /** `e` is a `kind` edge whose endpoints are `a` and `b`, stored in either orientation. */
  predicate Joins(e: Edge, kind: Kind, a: Id, b: Id)
  {
    e.kind == kind && ((e.from == a && e.to == b) || (e.from == b && e.to == a))
  }

  /** Some `kind` edge joins `a` and `b`, in either orientation. */
  predicate Linked(edges: seq<Edge>, kind: Kind, a: Id, b: Id)
  {
    exists i :: 0 <= i < |edges| && Joins(edges[i], kind, a, b)
  }

  /** The directed edge `from -> to` of `kind` is stored. */
  predicate Directed(edges: seq<Edge>, kind: Kind, from: Id, to: Id)
  {
    Edge(from, to, kind) in edges
  }

  /** Appending never removes a link. */
  lemma LinkedPersists(edges: seq<Edge>, more: seq<Edge>, kind: Kind, a: Id, b: Id)
    requires Linked(edges, kind, a, b)
    ensures Linked(edges + more, kind, a, b)
  {
    var i :| 0 <= i < |edges| && Joins(edges[i], kind, a, b);
    assert (edges + more)[i] == edges[i];
  }

  // ---------------------------------------------------------------- users table

  /** The two columns the `users` table is searched by. */
  datatype Column = EmailColumn | IdColumn

  function Key(u: User, column: Column): string
  {
    match column
    case EmailColumn => u.email
    case IdColumn => u.id
  }

  /** `SELECT ... FROM users WHERE <column> = $1` followed by `.One()`: the first matching row. */
  function FindRow(users: seq<User>, column: Column, value: string): (r: Option<User>)
    ensures r.Some? <==> exists u :: u in users && Key(u, column) == value
    ensures r.Some? ==> r.value in users && Key(r.value, column) == value
  {
    if |users| == 0 then None
    else if Key(users[0], column) == value then Some(users[0])
    else FindRow(users[1..], column, value)
  }

  /** The row with the given email. */
  function FindByEmail(users: seq<User>, email: string): Option<User>
  {
    FindRow(users, EmailColumn, email)
  }

  /** The row with the given id. */
  function FindById(users: seq<User>, id: Id): Option<User>
  {
    FindRow(users, IdColumn, id)
  }

  /** The table's key constraints: `id` is the primary key and `email` is unique. */
  predicate ValidUsers(users: seq<User>)
  {
    forall i, j :: 0 <= i < j < |users| ==> users[i].id != users[j].id && users[i].email != users[j].email
  }

  /** Under the key constraints a row is found by its own id. */
  lemma FindByIdOfRow(users: seq<User>, u: User)
    requires ValidUsers(users)
    requires u in users
    ensures FindById(users, u.id) == Some(u)
  {
    var v := FindById(users, u.id).value;
    var i :| 0 <= i < |users| && users[i] == u;
    var j :| 0 <= j < |users| && users[j] == v;
    assert i == j;
  }

  // ---------------------------------------------------------------- environment

  /** The store calls the engine makes; a call listed in `Faults.calls` fails in the database. */
  datatype Call =
    | FriendshipCheck | SubscriptionCheck | BlockCheck
    | EdgeInsert | FriendsQuery | CommonFriendsQuery | RecipientsQuery

  /** Which database round trips fail: user lookups of the emails in `lookups` return an error
      other than `sql.ErrNoRows`, and every store call in `calls` returns a driver error. */
  datatype Faults = Faults(lookups: set<string>, calls: set<Call>)

  /** Whether one database round trip completes. */
  datatype Io = Completes | Fails

  function IoOf(faults: Faults, call: Call): (io: Io)
    ensures io == Fails <==> call in faults.calls
  {
    if call in faults.calls then Fails else Completes
  }

  /** The three outcomes of the user repository's `GetUserByEmail`. */
  datatype Lookup = Found(user: User) | NoRowsFound | LookupFailed

  function GetUserByEmail(users: seq<User>, faults: Faults, email: string): (r: Lookup)
    ensures r.LookupFailed? <==> email in faults.lookups
    ensures r.NoRowsFound? <==> email !in faults.lookups && forall u :: u in users ==> u.email != email
    ensures r.Found? ==> r.user in users && r.user.email == email
  {
    if email in faults.lookups then LookupFailed
    else match FindByEmail(users, email)
      case Some(u) => Found(u)
      case None => NoRowsFound
  }

  /** The email's lookup returns a row. */
  predicate Resolves(users: seq<User>, faults: Faults, email: string)
  {
    GetUserByEmail(users, faults, email).Found?
  }
}

=== FILE: invariants.dfy ===
/** Properties of whole histories of engine writes: the edges only grow, no pair ever gets two
    edges of one kind, a block vetoes every later friendship, and friendship is visible from
    both sides. */
module EngineInvariants {
  import opened Wrappers
  import opened Seqs
  import opened Graph
  import opened RelationshipStore
  import opened RelationshipEngine

  /** The three write requests, as the request handlers admit them. */
  datatype Request =
    | FriendRequest(first: string, second: string)
    | SubscribeRequest(requestor: string, target: string)
    | BlockRequest(requestor: string, target: string)

  /** The handlers reject two equal emails. */
  predicate Admissible(q: Request)
  {
    match q
    case FriendRequest(a, b) => a != b
    case SubscribeRequest(r, t) => r != t
    case BlockRequest(r, t) => r != t
  }

  /** One request and the faults the database shows while it runs. */
  datatype Step = Step(request: Request, faults: Faults)

  function Apply(db: Db, step: Step): (r: Written)
    requires Admissible(step.request)
    ensures r.err.Some? ==> r.edges == db.edges
    ensures r.err.None? ==>
      && |r.edges| == |db.edges| + 1
      && r.edges[..|db.edges|] == db.edges
      && var e := r.edges[|db.edges|];
      && !Linked(db.edges, e.kind, e.from, e.to)
      && (e.kind == Friend <==> step.request.FriendRequest?)
      && (exists u :: u in db.users && u.id == e.from)
      && (exists u :: u in db.users && u.id == e.to)
  {
    match step.request
    case FriendRequest(a, b) => CreateFriend(db, step.faults, [a, b])
    case SubscribeRequest(req, tgt) => RelationshipEngine.Subscribe(db, step.faults, req, tgt)
    case BlockRequest(req, tgt) => BlockUpdates(db, step.faults, req, tgt)
  }

  predicate AllAdmissible(steps: seq<Step>)
  {
    forall i :: 0 <= i < |steps| ==> Admissible(steps[i].request)
  }

  /** The edges after running `steps` in order against a fixed users table. */
  function Run(users: seq<User>, edges: seq<Edge>, steps: seq<Step>): (r: seq<Edge>)
    requires AllAdmissible(steps)
    ensures edges <= r
    decreases |steps|
  {
    if |steps| == 0 then edges
    else
      var next := Apply(Db(users, edges), steps[0]).edges;
      assert Admissible(steps[0].request);
      var r := Run(users, next, steps[1..]);
      assert edges <= next;
      r
  }

  // ---------------------------------------------------------------- one edge per kind and pair

  /** No two edges of the same kind join the same unordered pair. */
  predicate UniquePairs(edges: seq<Edge>)
  {
    forall i, j :: 0 <= i < j < |edges| && edges[i].kind == edges[j].kind ==>
      !Joins(edges[j], edges[i].kind, edges[i].from, edges[i].to)
  }

  lemma ApplyKeepsUniquePairs(db: Db, step: Step)
    requires Admissible(step.request)
    requires UniquePairs(db.edges)
    ensures UniquePairs(Apply(db, step).edges)
  {
    var r := Apply(db, step).edges;
    if r != db.edges {
      var n := |db.edges|;
      var e := r[n];
      forall i, j | 0 <= i < j < |r| && r[i].kind == r[j].kind
        ensures !Joins(r[j], r[i].kind, r[i].from, r[i].to)
      {
        if j == n {
          assert r[i] == db.edges[i];
          if Joins(e, r[i].kind, r[i].from, r[i].to) {
            assert Joins(db.edges[i], e.kind, e.from, e.to);
          }
        } else {
          assert r[i] == db.edges[i] && r[j] == db.edges[j];
        }
      }
    }
  }

  /** Whatever the faults, every history of engine writes keeps at most one Friend, one
      Subscribe and one Block edge per unordered pair of accounts. */
  lemma {:induction false} RunKeepsUniquePairs(users: seq<User>, edges: seq<Edge>, steps: seq<Step>)
    requires AllAdmissible(steps)
    requires UniquePairs(edges)
    ensures UniquePairs(Run(users, edges, steps))
    decreases |steps|
  {
    if |steps| > 0 {
      assert Admissible(steps[0].request);
      ApplyKeepsUniquePairs(Db(users, edges), steps[0]);
      RunKeepsUniquePairs(users, Apply(Db(users, edges), steps[0]).edges, steps[1..]);
    }
  }

  /** A block does not undo an earlier friendship: the friend edge and the block edge coexist,
      so uniqueness holds per kind only. */
  lemma FriendshipThenBlockCoexist()
    ensures var db := Db([User("1", "a@x.com"), User("2", "b@x.com")], []);
      var friends := CreateFriend(db, Faults({}, {}), ["a@x.com", "b@x.com"]);
      var blocked := BlockUpdates(Db(db.users, friends.edges), Faults({}, {}), "a@x.com", "b@x.com");
      && friends.err.None? && blocked.err.None?
      && blocked.edges == [Edge("1", "2", Friend), Edge("1", "2", Block)]
  {
    var db := Db([User("1", "a@x.com"), User("2", "b@x.com")], []);
    var after := [Edge("1", "2", Friend)];
    assert !Linked(after, Block, "1", "2");
  }

  // ---------------------------------------------------------------- histories

  /** The same email resolves to the same row whenever both lookups succeed. */
  lemma SameResolution(users: seq<User>, f1: Faults, f2: Faults, email: string)
    requires Resolves(users, f1, email) && Resolves(users, f2, email)
    ensures GetUserByEmail(users, f1, email).user == GetUserByEmail(users, f2, email).user
  {
  }

  /** Once `BlockUpdates(a, b)` has succeeded, no later `CreateFriend` of the two succeeds, in
      either order and whatever happened in between. */
  lemma BlockVetoesLaterFriendship(users: seq<User>, edges: seq<Edge>, f: Faults, a: string, b: string,
                                   steps: seq<Step>, g: Faults)
    requires a != b
    requires BlockUpdates(Db(users, edges), f, a, b).err.None?
    requires AllAdmissible(steps)
    ensures var later := Run(users, BlockUpdates(Db(users, edges), f, a, b).edges, steps);
      && CreateFriend(Db(users, later), g, [a, b]).err.Some?
      && CreateFriend(Db(users, later), g, [b, a]).err.Some?
  {
    var ua := GetUserByEmail(users, f, a).user;
    var ub := GetUserByEmail(users, f, b).user;
    var blocked := BlockUpdates(Db(users, edges), f, a, b).edges;
    var later := Run(users, blocked, steps);
    assert Linked(blocked, Block, ua.id, ub.id) by {
      assert Joins(blocked[|edges|], Block, ua.id, ub.id);
    }
    LinkedPersists(blocked, later[|blocked|..], Block, ua.id, ub.id);
    assert blocked + later[|blocked|..] == later;
    assert Linked(later, Block, ub.id, ua.id) by {
      var i :| 0 <= i < |later| && Joins(later[i], Block, ua.id, ub.id);
      assert Joins(later[i], Block, ub.id, ua.id);
    }
    if Resolves(users, g, a) && Resolves(users, g, b) {
      SameResolution(users, f, g, a);
      SameResolution(users, f, g, b);
    }
  }

  /** Once `CreateFriend(a, b)` has succeeded, a later `CreateFriend` of the two fails, in either
      order. */
  lemma FriendshipIsCreatedOnce(users: seq<User>, edges: seq<Edge>, f: Faults, a: string, b: string,
                                steps: seq<Step>, g: Faults)
    requires a != b
    requires CreateFriend(Db(users, edges), f, [a, b]).err.None?
    requires AllAdmissible(steps)
    ensures var later := Run(users, CreateFriend(Db(users, edges), f, [a, b]).edges, steps);
      && CreateFriend(Db(users, later), g, [a, b]).err.Some?
      && CreateFriend(Db(users, later), g, [b, a]).err.Some?
  {
    var ua := GetUserByEmail(users, f, a).user;
    var ub := GetUserByEmail(users, f, b).user;
    var friends := CreateFriend(Db(users, edges), f, [a, b]).edges;
    var later := Run(users, friends, steps);
    assert Linked(friends, Friend, ua.id, ub.id) by {
      assert Joins(friends[|edges|], Friend, ua.id, ub.id);
    }
    LinkedPersists(friends, later[|friends|..], Friend, ua.id, ub.id);
    assert friends + later[|friends|..] == later;
    assert Linked(later, Friend, ub.id, ua.id) by {
      var i :| 0 <= i < |later| && Joins(later[i], Friend, ua.id, ub.id);
      assert Joins(later[i], Friend, ub.id, ua.id);
    }
    if Resolves(users, g, a) && Resolves(users, g, b) {
      SameResolution(users, f, g, a);
      SameResolution(users, f, g, b);
    }
  }

  lemma ApplyKeepsReferential(db: Db, step: Step)
    requires Admissible(step.request)
    requires Referential(db.users, db.edges)
    ensures Referential(db.users, Apply(db, step).edges)
  {
    var r := Apply(db, step).edges;
    if r != db.edges {
      forall e | e in r
        ensures FindById(db.users, e.from).Some? && FindById(db.users, e.to).Some?
      {
        var k :| 0 <= k < |r| && r[k] == e;
        if k < |db.edges| {
          assert e == db.edges[k];
        }
      }
    }
  }

  /** Engine writes only ever join rows of the users table. */
  lemma {:induction false} RunKeepsReferential(users: seq<User>, edges: seq<Edge>, steps: seq<Step>)
    requires AllAdmissible(steps)
    requires Referential(users, edges)
    ensures Referential(users, Run(users, edges, steps))
    decreases |steps|
  {
    if |steps| > 0 {
      assert Admissible(steps[0].request);
      ApplyKeepsReferential(Db(users, edges), steps[0]);
      RunKeepsReferential(users, Apply(Db(users, edges), steps[0]).edges, steps[1..]);
    }
  }

  /** A user's friend list, read without faults, lists every row Friend-linked to the user. */
  lemma LinkedFriendListed(users: seq<User>, edges: seq<Edge>, g: Faults, u: User, v: User)
    requires ValidUsers(users) && Referential(users, edges)
    requires u in users && v in users
    requires u.email !in g.lookups && FriendsQuery !in g.calls
    requires Linked(edges, Friend, u.id, v.id)
    ensures GetFriendListByEmail(Db(users, edges), g, u.email).Success?
    ensures v.email in GetFriendListByEmail(Db(users, edges), g, u.email).value
  {
    FindByEmailOfRow(users, u);
    assert GetUserByEmail(users, g, u.email) == Found(u);
  }

  /** A link, once stored, survives any history of writes, in both orientations. */
  lemma LinkedAfterRun(users: seq<User>, edges: seq<Edge>, steps: seq<Step>, kind: Kind, x: Id, y: Id)
    requires AllAdmissible(steps)
    requires Linked(edges, kind, x, y)
    ensures Linked(Run(users, edges, steps), kind, x, y)
    ensures Linked(Run(users, edges, steps), kind, y, x)
  {
    var later := Run(users, edges, steps);
    LinkedPersists(edges, later[|edges|..], kind, x, y);
    assert edges + later[|edges|..] == later;
    LinkedSymmetric(later, kind, x, y);
  }

  /** A successful `CreateFriend(a, b)` links the two rows and keeps the foreign keys. */
  lemma FriendEdgeCreated(users: seq<User>, edges: seq<Edge>, f: Faults, a: string, b: string)
    requires Referential(users, edges)
    requires a != b
    requires CreateFriend(Db(users, edges), f, [a, b]).err.None?
    ensures var friends := CreateFriend(Db(users, edges), f, [a, b]).edges;
      && Referential(users, friends)
      && Linked(friends, Friend, GetUserByEmail(users, f, a).user.id, GetUserByEmail(users, f, b).user.id)
  {
    var friends := CreateFriend(Db(users, edges), f, [a, b]).edges;
    ApplyKeepsReferential(Db(users, edges), Step(FriendRequest(a, b), f));
    assert Joins(friends[|edges|], Friend, GetUserByEmail(users, f, a).user.id, GetUserByEmail(users, f, b).user.id);
  }

  /** After `CreateFriend(a, b)` succeeds, each is in the other's friend list from then on. */
  lemma FriendshipVisibleBothWays(users: seq<User>, edges: seq<Edge>, f: Faults, a: string, b: string,
                                  steps: seq<Step>, g: Faults)
    requires ValidUsers(users) && Referential(users, edges)
    requires a != b
    requires CreateFriend(Db(users, edges), f, [a, b]).err.None?
    requires AllAdmissible(steps)
    requires a !in g.lookups && b !in g.lookups && FriendsQuery !in g.calls
    ensures var later := Run(users, CreateFriend(Db(users, edges), f, [a, b]).edges, steps);
      && GetFriendListByEmail(Db(users, later), g, a).Success?
      && b in GetFriendListByEmail(Db(users, later), g, a).value
      && GetFriendListByEmail(Db(users, later), g, b).Success?
      && a in GetFriendListByEmail(Db(users, later), g, b).value
  {
    var ua := GetUserByEmail(users, f, a).user;
    var ub := GetUserByEmail(users, f, b).user;
    var friends := CreateFriend(Db(users, edges), f, [a, b]).edges;
    var later := Run(users, friends, steps);
    FriendEdgeCreated(users, edges, f, a, b);
    RunKeepsReferential(users, friends, steps);
    LinkedAfterRun(users, friends, steps, Friend, ua.id, ub.id);
    LinkedFriendListed(users, later, g, ua, ub);
    LinkedFriendListed(users, later, g, ub, ua);
  }

  /** An account that both qualifies through the store and is mentioned appears exactly once. */
  lemma MentionedRecipientOnce(db: Db, faults: Faults, sender: string, mentions: seq<string>, x: string)
    requires GetUpdatableEmailAddresses(db, faults, sender, mentions).Success?
    requires x in mentions
    ensures multiset(GetUpdatableEmailAddresses(db, faults, sender, mentions).value)[x] == 1
  {
    NoDupCountsOnce(GetUpdatableEmailAddresses(db, faults, sender, mentions).value, x);
  }

  // ---------------------------------------------------------------- scenarios

  /** The scenario's steps, one per lemma, so that each stays small. */
  lemma AliceAndBobBecomeFriends()
    ensures var users := [User("1", "alice@x.com"), User("2", "bob@x.com")];
      CreateFriend(Db(users, []), Faults({}, {}), ["alice@x.com", "bob@x.com"]) == Written(None, [Edge("1", "2", Friend)])
  {
    var users := [User("1", "alice@x.com"), User("2", "bob@x.com")];
    var emails := ["alice@x.com", "bob@x.com"];
    assert GetUserByEmail(users, Faults({}, {}), emails[0]) == Found(users[0]);
    assert users[1..] == [users[1]];
    assert GetUserByEmail(users, Faults({}, {}), emails[1]) == Found(users[1]);
    CreateFriendConflicts(Db(users, []), Faults({}, {}), emails, users[0], users[1]);
  }

  lemma AliceListsBob()
    ensures var users := [User("1", "alice@x.com"), User("2", "bob@x.com")];
      GetFriendListByEmail(Db(users, [Edge("1", "2", Friend)]), Faults({}, {}), "alice@x.com") == Success(["bob@x.com"])
  {
    var users := [User("1", "alice@x.com"), User("2", "bob@x.com")];
    var edges := [Edge("1", "2", Friend)];
    assert FindByEmail(users, "alice@x.com") == Some(users[0]);
    assert GetUserByEmail(users, Faults({}, {}), "alice@x.com") == Found(users[0]);
    assert edges[..0] == [] && FriendIds([], "1") == [];
    assert Other(edges[0], "1") == "2";
    assert FriendIds(edges, "1") == [] + ["2"] == ["2"];
    assert users[1..] == [users[1]];
    assert FindById(users, "2") == Some(users[1]);
    assert ["2"][1..] == [] && EmailsByIds(users, []) == Success([]);
    assert FindById(users, ["2"][0]) == Some(users[1]);
    assert [users[1].email] + [] == ["bob@x.com"];
    assert EmailsByIds(users, ["2"]) == Success(["bob@x.com"]);
    assert GetFriends(users, edges, "alice@x.com", Completes) == Success(["bob@x.com"]);
  }

  lemma AliceAndBobRefusedTwice()
    ensures var users := [User("1", "alice@x.com"), User("2", "bob@x.com")];
      CreateFriend(Db(users, [Edge("1", "2", Friend)]), Faults({}, {}), ["alice@x.com", "bob@x.com"]).err
        == Some(BadRequest("friendship already exists between alice@x.com and bob@x.com"))
  {
    var users := [User("1", "alice@x.com"), User("2", "bob@x.com")];
    var edges := [Edge("1", "2", Friend)];
    var emails := ["alice@x.com", "bob@x.com"];
    assert GetUserByEmail(users, Faults({}, {}), emails[0]) == Found(users[0]);
    assert users[1..] == [users[1]];
    assert GetUserByEmail(users, Faults({}, {}), emails[1]) == Found(users[1]);
    assert Linked(edges, Friend, "1", "2") by {
      assert Joins(edges[0], Friend, "1", "2");
    }
    assert FriendshipCheck !in Faults({}, {}).calls;
    CreateFriendConflicts(Db(users, edges), Faults({}, {}), emails, users[0], users[1]);
    RefusalNamesAliceAndBob();
  }

  lemma RefusalNamesAliceAndBob()
    ensures "friendship already exists between " + "alice@x.com" + " and " + "bob@x.com"
      == "friendship already exists between alice@x.com and bob@x.com"
  {
  }

  /** Alice befriends Bob; Alice's friend list is then Bob alone, and a second request for the
      same pair is refused by name. */
  lemma AliceBefriendsBob()
    ensures var users := [User("1", "alice@x.com"), User("2", "bob@x.com")];
      var first := CreateFriend(Db(users, []), Faults({}, {}), ["alice@x.com", "bob@x.com"]);
      && first.err.None?
      && GetFriendListByEmail(Db(users, first.edges), Faults({}, {}), "alice@x.com") == Success(["bob@x.com"])
      && CreateFriend(Db(users, first.edges), Faults({}, {}), ["alice@x.com", "bob@x.com"]).err
        == Some(BadRequest("friendship already exists between alice@x.com and bob@x.com"))
  {
    AliceAndBobBecomeFriends();
    AliceListsBob();
    AliceAndBobRefusedTwice();
  }

  /** Dave subscribes to Alice and is also mentioned by her: he is a recipient exactly once. */
  lemma SubscriberAlsoMentioned()
    ensures var users := [User("1", "alice@x.com"), User("4", "dave@x.com")];
      var sub := RelationshipEngine.Subscribe(Db(users, []), Faults({}, {}), "dave@x.com", "alice@x.com");
      var r := GetUpdatableEmailAddresses(Db(users, sub.edges), Faults({}, {}), "alice@x.com", ["dave@x.com"]);
      && sub.err.None?
      && r.Success?
      && multiset(r.value)["dave@x.com"] == 1
  {
    var users := [User("1", "alice@x.com"), User("4", "dave@x.com")];
    var sub := RelationshipEngine.Subscribe(Db(users, []), Faults({}, {}), "dave@x.com", "alice@x.com");
    MentionedRecipientOnce(Db(users, sub.edges), Faults({}, {}), "alice@x.com", ["dave@x.com"], "dave@x.com");
  }
}

=== FILE: legacy_store.dfy ===
/** The older relationship repository. Its checks, inserts and `GetFriends` run the same
    queries as the reference store and are modelled by the same functions; what differs is
    `GetCommonFriends`, which resolves two emails itself, and the recipients query, which folds
    the mentioned addresses into the SQL. */
module LegacyStore {
  import opened Wrappers
  import opened Seqs
  import opened Graph
  import opened RelationshipStore

  /** `GetCommonFriends(email_1, email_2)`: any lookup error is a bad request naming the email. */
  function GetCommonFriendsByEmail(users: seq<User>, edges: seq<Edge>, faults: Faults, email1: string, email2: string)
    : (r: Result<seq<string>, Error>)
    ensures !Resolves(users, faults, email1) ==> r == Failure(BadRequest("user not found with email " + email1))
    ensures Resolves(users, faults, email1) && !Resolves(users, faults, email2) ==>
      r == Failure(BadRequest("user not found with email " + email2))
    ensures Resolves(users, faults, email1) && Resolves(users, faults, email2) ==>
      (r.Success? <==> CommonFriendsQuery !in faults.calls)
    ensures Resolves(users, faults, email1) && Resolves(users, faults, email2) && CommonFriendsQuery in faults.calls ==>
      r == Failure(Wrapped("failed to query common friends", DbFailure))
    ensures r.Success? ==> NoDup(r.value)
    ensures r.Success? ==>
      && Resolves(users, faults, email1) && Resolves(users, faults, email2)
      && var a := GetUserByEmail(users, faults, email1).user;
      && var b := GetUserByEmail(users, faults, email2).user;
      && forall x :: x in r.value <==>
        exists u :: u in users && u.email == x && Linked(edges, Friend, a.id, u.id) && Linked(edges, Friend, b.id, u.id)
  {
    match GetUserByEmail(users, faults, email1)
    case Found(a) =>
      (match GetUserByEmail(users, faults, email2)
       case Found(b) => GetCommonFriends(users, edges, a.id, b.id, IoOf(faults, CommonFriendsQuery))
       case _ => Failure(BadRequest("user not found with email " + email2)))
    case _ => Failure(BadRequest("user not found with email " + email1))
  }

  /** `extractMentionedEmails`, given the regular expression's matches in `text`: each match
      once. The Go code collects them through a map, whose iteration order is unspecified;
      this model keeps first occurrences in order. */
  function ExtractMentionedEmails(matches: seq<string>): (r: seq<string>)
    ensures NoDup(r)
    ensures forall x :: x in r <==> x in matches
  {
    Dedup(matches)
  }

  /** The panic `strings.Repeat` raises for a negative count. */
  const NegativeRepeat := Panic("strings: negative Repeat count")

  /** The legacy filter: the reference rule with "is mentioned" as a third way in, and the block
      filter written with the literal `'block'`, which excludes only when that literal is the tag
      the store writes for Block edges (`blockLiteralMatches`). */
  predicate LegacyEligible(edges: seq<Edge>, sender: Id, u: User, mentions: seq<string>, blockLiteralMatches: bool)
  {
    && u.id != sender
    && !(blockLiteralMatches && Directed(edges, Block, sender, u.id))
    && (Linked(edges, Friend, u.id, sender) || Directed(edges, Subscribe, u.id, sender) || u.email in mentions)
  }

  /** `GetUpdatableEmailAddresses(text, sender_id)` as written: with no mention the placeholder
      list is built with `strings.Repeat("?,", -1)`, which panics before the query runs. */
  function GetUpdatableEmailAddresses(users: seq<User>, edges: seq<Edge>, matches: seq<string>, sender: Id,
                                      blockLiteralMatches: bool, io: Io): (r: Result<seq<string>, Error>)
    ensures matches == [] ==> r == Failure(NegativeRepeat)
    ensures matches != [] ==> (r.Success? <==> io.Completes?)
    ensures matches != [] && io == Fails ==> r == Failure(Annotated("failed to get recipients", DbFailure))
    ensures r.Success? ==> NoDup(r.value)
    ensures r.Success? ==> forall x :: x in r.value <==>
      exists u :: u in users && u.email == x
        && u.id != sender
        && !(blockLiteralMatches && Edge(sender, u.id, Block) in edges)
        && (Linked(edges, Friend, u.id, sender) || Edge(u.id, sender, Subscribe) in edges || u.email in matches)
  {
    var mentions := ExtractMentionedEmails(matches);
    assert matches != [] ==> matches[0] in mentions;
    if |mentions| == 0 then Failure(NegativeRepeat)
    else if io == Fails then Failure(Annotated("failed to get recipients", DbFailure))
    else Success(SelectDistinctEmails(users, (u: User) => LegacyEligible(edges, sender, u, mentions, blockLiteralMatches)))
  }

  /** The same query with the mention clause left out when there is nothing to mention. */
  function GetUpdatableEmailAddressesFixed(users: seq<User>, edges: seq<Edge>, matches: seq<string>, sender: Id,
                                           blockLiteralMatches: bool, io: Io): (r: Result<seq<string>, Error>)
    ensures r.Failure? <==> io == Fails
    ensures r.Failure? ==> r.error == Annotated("failed to get recipients", DbFailure)
    ensures r.Success? ==> NoDup(r.value)
    ensures r.Success? ==> forall x :: x in r.value <==>
      exists u :: u in users && u.email == x
        && u.id != sender
        && !(blockLiteralMatches && Edge(sender, u.id, Block) in edges)
        && (Linked(edges, Friend, u.id, sender) || Edge(u.id, sender, Subscribe) in edges || u.email in matches)
  {
    var mentions := ExtractMentionedEmails(matches);
    if io == Fails then Failure(Annotated("failed to get recipients", DbFailure))
    else Success(SelectDistinctEmails(users, (u: User) => LegacyEligible(edges, sender, u, mentions, blockLiteralMatches)))
  }

  /** A text without any address makes the legacy recipients query panic. */
  lemma NoMentionPanics(users: seq<User>, edges: seq<Edge>, sender: Id, blockLiteralMatches: bool, io: Io)
    ensures GetUpdatableEmailAddresses(users, edges, [], sender, blockLiteralMatches, io) == Failure(NegativeRepeat)
    ensures GetUpdatableEmailAddressesFixed(users, edges, [], sender, blockLiteralMatches, io) != Failure(NegativeRepeat)
  {
  }

  /** The corrected query agrees with the written one wherever the latter does not panic,
      whether or not the `'block'` literal is live, and without mentions (and with the literal
      live) it is the reference store's recipients query. */
  lemma FixedRefinesWritten(users: seq<User>, edges: seq<Edge>, matches: seq<string>, sender: Id,
                            blockLiteralMatches: bool, io: Io)
    ensures matches != [] ==>
      GetUpdatableEmailAddressesFixed(users, edges, matches, sender, blockLiteralMatches, io)
        == GetUpdatableEmailAddresses(users, edges, matches, sender, blockLiteralMatches, io)
    ensures GetUpdatableEmailAddressesFixed(users, edges, [], sender, true, io) == GetRecipients(users, edges, sender, io)
  {
    SelectEmailsExtensional(users, (u: User) => LegacyEligible(edges, sender, u, ExtractMentionedEmails([]), true),
      (u: User) => Eligible(edges, sender, u.id));
  }

  /** Mentions pass through the filters: the sender itself is never a recipient and an
      unregistered mention is silently absent rather than an error, whatever the `'block'`
      literal; a mentioned account the sender blocked is not a recipient when that literal is
      live. */
  lemma MentionsAreFiltered(users: seq<User>, edges: seq<Edge>, matches: seq<string>, sender: User, m: string,
                            blockLiteralMatches: bool)
    requires ValidUsers(users) && sender in users
    requires matches != [] && m in matches
    ensures var r := GetUpdatableEmailAddresses(users, edges, matches, sender.id, blockLiteralMatches, Completes);
      && r.Success?
      && sender.email !in r.value
      && ((forall u :: u in users ==> u.email != m) ==> m !in r.value)
    ensures var r := GetUpdatableEmailAddresses(users, edges, matches, sender.id, true, Completes);
      forall u :: u in users && u.email == m && Directed(edges, Block, sender.id, u.id) ==> m !in r.value
  {
    forall u, w | u in users && w in users && u.email == w.email
      ensures u == w
    {
      SameEmailSameRow(users, u, w);
    }
  }

  /** With the `'block'` literal dead, the legacy query hands updates to a friend the sender
      has blocked. */
  lemma DeadBlockLiteralLeaksBlockedFriend(users: seq<User>, edges: seq<Edge>, matches: seq<string>, sender: Id, friend: User)
    requires friend in users && friend.id != sender
    requires Edge(sender, friend.id, Friend) in edges && Edge(sender, friend.id, Block) in edges
    requires matches != []
    ensures GetUpdatableEmailAddresses(users, edges, matches, sender, false, Completes).Success?
    ensures friend.email in GetUpdatableEmailAddresses(users, edges, matches, sender, false, Completes).value
  {
    var k :| 0 <= k < |edges| && edges[k] == Edge(sender, friend.id, Friend);
    assert Joins(edges[k], Friend, friend.id, sender);
  }
}

=== FILE: seqs.dfy ===
/** Duplicate-free sequences and the order-preserving "append if missing" merge. */
module Seqs {

  predicate NoDup<T(==)>(s: seq<T>)
  {
    forall i, j :: 0 <= i < j < |s| ==> s[i] != s[j]
  }

  /** Appends each element of `xs`, in order, unless it is already present: the
      `if !slices.Contains(acc, x) { acc = append(acc, x) }` loop. */
  function AppendMissing<T(==,!new)>(acc: seq<T>, xs: seq<T>): (r: seq<T>)
    ensures |acc| <= |r| <= |acc| + |xs|
    ensures r[..|acc|] == acc
    ensures forall x :: x in r <==> x in acc || x in xs
    ensures NoDup(acc) ==> NoDup(r)
    decreases |xs|
  {
    if |xs| == 0 then acc
    else
      var acc' := if xs[0] in acc then acc else acc + [xs[0]];
      assert acc'[..|acc|] == acc;
      assert forall x :: x in xs <==> x == xs[0] || x in xs[1..];
      var r := AppendMissing(acc', xs[1..]);
      assert r[..|acc|] == r[..|acc'|][..|acc|];
      r
  }

  /** Keeps the first occurrence of every element. */
  function Dedup<T(==,!new)>(s: seq<T>): (r: seq<T>)
    ensures NoDup(r)
    ensures forall x :: x in r <==> x in s
    ensures |r| <= |s|
  {
    AppendMissing([], s)
  }

  /** Two aligned sequences in which `x` and `y` occupy the same positions hold them equally
      often. */
  lemma {:induction false} CountsAlign<A, B>(a: seq<A>, b: seq<B>, x: A, y: B)
    requires |a| == |b|
    requires forall i :: 0 <= i < |a| ==> (a[i] == x <==> b[i] == y)
    ensures multiset(a)[x] == multiset(b)[y]
    decreases |a|
  {
    if |a| > 0 {
      assert a == [a[0]] + a[1..];
      assert b == [b[0]] + b[1..];
      CountsAlign(a[1..], b[1..], x, y);
    }
  }

  /** A duplicate-free sequence holds each of its elements exactly once. */
  lemma NoDupCountsOnce<T>(s: seq<T>, x: T)
    requires NoDup(s)
    requires x in s
    ensures multiset(s)[x] == 1
  {
    if s[0] == x {
      assert x !in s[1..];
      assert s == [s[0]] + s[1..];
    } else {
      assert s == [s[0]] + s[1..];
      NoDupCountsOnce(s[1..], x);
    }
  }
}

=== FILE: service_engine.dfy ===
/** The two service copies of the engine. Every operation is the controller's except
    `GetFriendListByEmail`, which asks the store directly without resolving the user first. */
module ServiceEngine {
  import opened Wrappers
  import opened Graph
  import opened RelationshipStore
  import RelationshipEngine

  /** `GetFriendListByEmail` of the services: the store's `sql.ErrNoRows`, which an unknown
      email produces, is an empty list. */
  function GetFriendListByEmail(db: RelationshipEngine.Db, faults: Faults, email: string): (r: Result<seq<string>, Error>)
    ensures FriendsQuery in faults.calls ==> r == Failure(Wrapped("failed to retrieve friends", DbFailure))
    ensures FriendsQuery !in faults.calls && (forall u :: u in db.users ==> u.email != email) ==> r == Success([])
    ensures FriendsQuery !in faults.calls ==> r.Success?
    ensures GetFriends(db.users, db.edges, email, IoOf(faults, FriendsQuery)) == Failure(NoRows) ==> r == Success([])
    ensures GetFriends(db.users, db.edges, email, IoOf(faults, FriendsQuery)).Success? ==>
      r == GetFriends(db.users, db.edges, email, IoOf(faults, FriendsQuery))
    ensures r.Success? && r.value != [] ==> FindByEmail(db.users, email).Some? && forall x :: x in r.value ==>
      exists v :: v in db.users && v.email == x && Linked(db.edges, Friend, FindByEmail(db.users, email).value.id, v.id)
  {
    match GetFriends(db.users, db.edges, email, IoOf(faults, FriendsQuery))
    case Success(friends) => Success(friends)
    case Failure(e) =>
      if Is(e, NoRows) then Success([])
      else Failure(Wrapped("failed to retrieve friends", e))
  }

  /** For an email that resolves, the service and the controller return the same list or error. */
  lemma AgreesWithControllerOnResolvedUsers(db: RelationshipEngine.Db, faults: Faults, email: string)
    requires Resolves(db.users, faults, email)
    ensures GetFriendListByEmail(db, faults, email) == RelationshipEngine.GetFriendListByEmail(db, faults, email)
  {
  }

  /** For an unregistered email the controller answers NotFound while the service answers with an
      empty friend list. */
  lemma DiffersFromControllerOnUnknownUsers(db: RelationshipEngine.Db, faults: Faults, email: string)
    requires forall u :: u in db.users ==> u.email != email
    requires FriendsQuery !in faults.calls
    ensures GetFriendListByEmail(db, faults, email) == Success([])
    ensures RelationshipEngine.GetFriendListByEmail(db, faults, email) == Failure(NotFound("user not found with email " + email))
  {
  }
}

=== FILE: store.dfy ===
/** The relationship repository: inserts, existence checks and the traversal queries,
    each a comprehension over the append-only sequence of stored edges. */
module RelationshipStore {
  import opened Wrappers
  import opened Seqs
  import opened Graph

  /** The `(bool, error)` pair an existence check returns. */
  datatype Checked = Checked(found: bool, err: Option<Error>)

  /** The error an insert or a write command returns, and the edges stored afterwards. */
  datatype Written = Written(err: Option<Error>, edges: seq<Edge>)

  // ---------------------------------------------------------------- existence checks

  /** `CheckFriendshipExists`, `CheckSubscriptionExists` and `CheckBlockExists`: one
      `SELECT EXISTS` over both orientations of the pair. On a query error the friendship
      check answers `false` and the two directed checks answer `true`. */
  function CheckExists(edges: seq<Edge>, kind: Kind, a: Id, b: Id, io: Io): (r: Checked)
    ensures r.err.Some? <==> io == Fails
    ensures r.err.Some? ==> r.err == Some(DbFailure) && (r.found <==> kind != Friend)
    ensures r.err.None? ==>
      (r.found <==> exists i :: 0 <= i < |edges| && edges[i].kind == kind && {edges[i].from, edges[i].to} == {a, b})
  {
    if io == Fails then Checked(kind != Friend, Some(DbFailure))
    else
      var found := Linked(edges, kind, a, b);
      assert found ==> exists i :: 0 <= i < |edges| && edges[i].kind == kind && {edges[i].from, edges[i].to} == {a, b};
      assert (exists i :: 0 <= i < |edges| && edges[i].kind == kind && {edges[i].from, edges[i].to} == {a, b}) ==> found by {
        if exists i :: 0 <= i < |edges| && edges[i].kind == kind && {edges[i].from, edges[i].to} == {a, b} {
          var i :| 0 <= i < |edges| && edges[i].kind == kind && {edges[i].from, edges[i].to} == {a, b};
          PairEquality(edges[i].from, edges[i].to, a, b);
          assert Joins(edges[i], kind, a, b);
        }
      }
      Checked(found, None)
  }

  lemma PairEquality(x: Id, y: Id, a: Id, b: Id)
    requires {x, y} == {a, b}
    ensures (x == a && y == b) || (x == b && y == a)
  {
    assert x in {a, b} && y in {a, b} && a in {x, y} && b in {x, y};
  }

  /** The checks are symmetric in their arguments, for directed kinds too. */
  lemma CheckExistsSymmetric(edges: seq<Edge>, kind: Kind, a: Id, b: Id, io: Io)
    ensures CheckExists(edges, kind, a, b, io) == CheckExists(edges, kind, b, a, io)
  {
    assert Linked(edges, kind, a, b) == Linked(edges, kind, b, a) by {
      assert forall i :: 0 <= i < |edges| ==> Joins(edges[i], kind, a, b) == Joins(edges[i], kind, b, a);
    }
  }

  // ---------------------------------------------------------------- inserts

  /** `CreateFriend`, `Subscribe` and `BlockUpdates` of the repository: insert one row. */
  function InsertEdge(edges: seq<Edge>, from: Id, to: Id, kind: Kind, io: Io): (r: Written)
    ensures io == Fails ==> r.err == Some(DbFailure) && r.edges == edges
    ensures io == Completes ==>
      && r.err.None?
      && |r.edges| == |edges| + 1
      && r.edges[..|edges|] == edges
      && r.edges[|edges|] == Edge(from, to, kind)
  {
    if io == Fails then Written(Some(DbFailure), edges)
    else Written(None, edges + [Edge(from, to, kind)])
  }

  // ---------------------------------------------------------------- friends

  /** The endpoint of `e` that is not `u` (`u` itself for a self-loop). */
  function Other(e: Edge, u: Id): Id
  {
    if e.from == u then e.to else e.from
  }

  lemma LinkedLast(edges: seq<Edge>, kind: Kind, a: Id, b: Id)
    requires |edges| > 0
    ensures Linked(edges, kind, a, b) <==>
      Linked(edges[..|edges| - 1], kind, a, b) || Joins(edges[|edges| - 1], kind, a, b)
  {
    var init := edges[..|edges| - 1];
    if Linked(edges, kind, a, b) {
      var i :| 0 <= i < |edges| && Joins(edges[i], kind, a, b);
      if i < |edges| - 1 {
        assert init[i] == edges[i];
      }
    }
    if Linked(init, kind, a, b) {
      var i :| 0 <= i < |init| && Joins(init[i], kind, a, b);
      assert edges[i] == init[i];
    }
  }

  /** The positions of the Friend edges that touch `u`. */
  function FriendEdgesOf(edges: seq<Edge>, u: Id): set<nat>
  {
    set i: nat | i < |edges| && edges[i].kind == Friend && (edges[i].from == u || edges[i].to == u)
  }

  /** The positions of the Friend edges that join `u` and `v`. */
  function FriendEdgesBetween(edges: seq<Edge>, u: Id, v: Id): set<nat>
  {
    set i: nat | i < |edges| && Joins(edges[i], Friend, u, v)
  }

  /** Dropping the last edge drops at most its own position from both sets. */
  lemma FriendEdgesLast(edges: seq<Edge>, u: Id, v: Id)
    requires |edges| > 0
    ensures var n := |edges| - 1;
      && FriendEdgesOf(edges, u)
        == FriendEdgesOf(edges[..n], u) + (if n in FriendEdgesOf(edges, u) then {n} else {})
      && FriendEdgesBetween(edges, u, v)
        == FriendEdgesBetween(edges[..n], u, v) + (if Joins(edges[n], Friend, u, v) then {n} else {})
      && n !in FriendEdgesOf(edges[..n], u) && n !in FriendEdgesBetween(edges[..n], u, v)
  {
    var n := |edges| - 1;
    assert forall i :: 0 <= i < n ==> edges[..n][i] == edges[i];
  }

  /** The ids at the other end of `u`'s Friend edges, in edge order, not deduplicated. */
  function FriendIds(edges: seq<Edge>, u: Id): (r: seq<Id>)
    ensures |r| <= |edges|
    ensures forall v :: v in r <==> Linked(edges, Friend, u, v)
    decreases |edges|
  {
    if |edges| == 0 then []
    else
      var e := edges[|edges| - 1];
      var step := if e.kind == Friend && (e.from == u || e.to == u) then [Other(e, u)] else [];
      assert forall v :: v in step <==> Joins(e, Friend, u, v);
      LinkedLast(edges, Friend, u, u);
      assert forall v :: Linked(edges, Friend, u, v) <==> Linked(edges[..|edges| - 1], Friend, u, v) || Joins(e, Friend, u, v) by {
        forall v { LinkedLast(edges, Friend, u, v); }
      }
      FriendIds(edges[..|edges| - 1], u) + step
  }

  /** `FriendIds` lists one id per Friend edge touching `u`. */
  lemma {:induction false} FriendIdsLength(edges: seq<Edge>, u: Id)
    ensures |FriendIds(edges, u)| == |FriendEdgesOf(edges, u)|
    decreases |edges|
  {
    if |edges| == 0 {
      assert FriendEdgesOf(edges, u) == {};
    } else {
      var n := |edges| - 1;
      FriendIdsLength(edges[..n], u);
      FriendEdgesLast(edges, u, u);
      if edges[n].kind == Friend && (edges[n].from == u || edges[n].to == u) {
        assert n in FriendEdgesOf(edges, u);
      }
    }
  }

  /** `v` occurs in `FriendIds(edges, u)` once for every Friend edge joining `u` and `v`:
      repeated edges give repeated ids. */
  lemma {:induction false} FriendIdsCount(edges: seq<Edge>, u: Id, v: Id)
    ensures multiset(FriendIds(edges, u))[v] == |FriendEdgesBetween(edges, u, v)|
    decreases |edges|
  {
    if |edges| == 0 {
      assert FriendEdgesBetween(edges, u, v) == {};
    } else {
      var n := |edges| - 1;
      var e := edges[n];
      var step := if e.kind == Friend && (e.from == u || e.to == u) then [Other(e, u)] else [];
      assert FriendIds(edges, u) == FriendIds(edges[..n], u) + step;
      FriendIdsCount(edges[..n], u, v);
      FriendEdgesLast(edges, u, v);
      assert v in step <==> Joins(e, Friend, u, v);
      assert multiset(FriendIds(edges, u))[v] == multiset(FriendIds(edges[..n], u))[v] + multiset(step)[v];
    }
  }

  /** Maps friend ids back to emails, one `users` query per id; a dangling id is `sql.ErrNoRows`. */
  function EmailsByIds(users: seq<User>, ids: seq<Id>): (r: Result<seq<string>, Error>)
    ensures r.Success? <==> forall i :: 0 <= i < |ids| ==> FindById(users, ids[i]).Some?
    ensures r.Failure? ==> r.error == NoRows
    ensures r.Success? ==> |r.value| == |ids|
    ensures r.Success? ==> forall i :: 0 <= i < |ids| ==> FindById(users, ids[i]) == Some(User(ids[i], r.value[i]))
  {
    if |ids| == 0 then Success([])
    else match FindById(users, ids[0])
      case None => Failure(NoRows)
      case Some(u) =>
        match EmailsByIds(users, ids[1..])
        case Failure(e) => Failure(e)
        case Success(rest) =>
          assert forall i :: 1 <= i < |ids| ==> ids[i] == ids[1..][i - 1];
          Success([u.email] + rest)
  }

  /** Every row's key `id` is the id of a row of `users`, and every stored edge joins rows of
      `users` (the foreign keys of the `relationships` table). */
  predicate Referential(users: seq<User>, edges: seq<Edge>)
  {
    forall e :: e in edges ==> FindById(users, e.from).Some? && FindById(users, e.to).Some?
  }

  /** `GetFriends(email)`: an unknown email is `sql.ErrNoRows`; otherwise the emails of the
      user's friends, one per Friend edge. */
  function GetFriends(users: seq<User>, edges: seq<Edge>, email: string, io: Io): (r: Result<seq<string>, Error>)
    ensures io == Fails ==> r == Failure(DbFailure)
    ensures io == Completes && (forall u :: u in users ==> u.email != email) ==> r == Failure(NoRows)
    ensures r.Success? ==> FindByEmail(users, email).Some?
    ensures r.Success? ==> forall x :: x in r.value ==>
      exists v :: v in users && v.email == x && Linked(edges, Friend, FindByEmail(users, email).value.id, v.id)
    ensures r.Success? && ValidUsers(users) ==> forall v :: v in users && Linked(edges, Friend, FindByEmail(users, email).value.id, v.id) ==> v.email in r.value
    ensures io == Completes && FindByEmail(users, email).Some? && Referential(users, edges) ==> r.Success?
    ensures io == Completes && r.Failure? ==> r.error == NoRows
    ensures r.Success? ==> |r.value| == |FriendEdgesOf(edges, FindByEmail(users, email).value.id)|
    ensures r.Success? && ValidUsers(users) ==> forall v :: v in users ==>
      multiset(r.value)[v.email] == |FriendEdgesBetween(edges, FindByEmail(users, email).value.id, v.id)|
  {
    if io == Fails then Failure(DbFailure)
    else match FindByEmail(users, email)
      case None => Failure(NoRows)
      case Some(u) =>
        var ids := FriendIds(edges, u.id);
        var r := EmailsByIds(users, ids);
        FriendEmailsSound(users, edges, u.id, ids, r);
        FriendEmailsComplete(users, edges, u.id, ids, r);
        FriendEmailsTotal(users, edges, u.id, ids);
        FriendIdsLength(edges, u.id);
        FriendEmailsCount(users, edges, u.id, ids, r);
        r
  }

  /** Under the key constraints, each friend's email is listed as often as its id. */
  lemma FriendEmailsCount(users: seq<User>, edges: seq<Edge>, u: Id, ids: seq<Id>, r: Result<seq<string>, Error>)
    requires ids == FriendIds(edges, u) && r == EmailsByIds(users, ids)
    ensures r.Success? && ValidUsers(users) ==> forall v :: v in users ==>
      multiset(r.value)[v.email] == |FriendEdgesBetween(edges, u, v.id)|
  {
    if r.Success? && ValidUsers(users) {
      forall v | v in users
        ensures multiset(r.value)[v.email] == |FriendEdgesBetween(edges, u, v.id)|
      {
        forall i | 0 <= i < |ids|
          ensures r.value[i] == v.email <==> ids[i] == v.id
        {
          var w := User(ids[i], r.value[i]);
          assert FindById(users, ids[i]) == Some(w);
          if r.value[i] == v.email {
            SameEmailSameRow(users, v, w);
          }
          if ids[i] == v.id {
            FindByIdOfRow(users, v);
          }
        }
        CountsAlign(r.value, ids, v.email, v.id);
        FriendIdsCount(edges, u, v.id);
      }
    }
  }

  lemma FriendEmailsSound(users: seq<User>, edges: seq<Edge>, u: Id, ids: seq<Id>, r: Result<seq<string>, Error>)
    requires ids == FriendIds(edges, u) && r == EmailsByIds(users, ids)
    ensures r.Success? ==> forall x :: x in r.value ==> exists v :: v in users && v.email == x && Linked(edges, Friend, u, v.id)
  {
    if r.Success? {
      forall x | x in r.value
        ensures exists v :: v in users && v.email == x && Linked(edges, Friend, u, v.id)
      {
        var i :| 0 <= i < |r.value| && r.value[i] == x;
        assert ids[i] in ids;
        var v := FindById(users, ids[i]).value;
        assert v in users && v.email == x && Linked(edges, Friend, u, v.id);
      }
    }
  }

  lemma FriendEmailsComplete(users: seq<User>, edges: seq<Edge>, u: Id, ids: seq<Id>, r: Result<seq<string>, Error>)
    requires ids == FriendIds(edges, u) && r == EmailsByIds(users, ids)
    ensures r.Success? && ValidUsers(users) ==> forall v :: v in users && Linked(edges, Friend, u, v.id) ==> v.email in r.value
  {
    if r.Success? && ValidUsers(users) {
      forall v | v in users && Linked(edges, Friend, u, v.id)
        ensures v.email in r.value
      {
        assert v.id in ids;
        var i :| 0 <= i < |ids| && ids[i] == v.id;
        FindByIdOfRow(users, v);
        assert r.value[i] == v.email;
      }
    }
  }

  lemma FriendEmailsTotal(users: seq<User>, edges: seq<Edge>, u: Id, ids: seq<Id>)
    requires ids == FriendIds(edges, u)
    ensures Referential(users, edges) ==> EmailsByIds(users, ids).Success?
  {
    if Referential(users, edges) {
      forall i | 0 <= i < |ids|
        ensures FindById(users, ids[i]).Some?
      {
        assert ids[i] in ids;
        var k :| 0 <= k < |edges| && Joins(edges[k], Friend, u, ids[i]);
        assert edges[k] in edges;
      }
    }
  }

  /** Friend lists are mutual: `b` is in `a`'s list exactly when `a` is in `b`'s. */
  lemma FriendsSymmetric(users: seq<User>, edges: seq<Edge>, ua: User, ub: User, io: Io)
    requires ValidUsers(users)
    requires ua in users && ub in users
    requires GetFriends(users, edges, ua.email, io).Success?
    requires GetFriends(users, edges, ub.email, io).Success?
    ensures ub.email in GetFriends(users, edges, ua.email, io).value <==> ua.email in GetFriends(users, edges, ub.email, io).value
  {
    FindByEmailOfRow(users, ua);
    FindByEmailOfRow(users, ub);
    var fa := GetFriends(users, edges, ua.email, io).value;
    var fb := GetFriends(users, edges, ub.email, io).value;
    if ub.email in fa {
      var v :| v in users && v.email == ub.email && Linked(edges, Friend, ua.id, v.id);
      SameEmailSameRow(users, v, ub);
      LinkedSymmetric(edges, Friend, ua.id, ub.id);
    }
    if ua.email in fb {
      var v :| v in users && v.email == ua.email && Linked(edges, Friend, ub.id, v.id);
      SameEmailSameRow(users, v, ua);
      LinkedSymmetric(edges, Friend, ub.id, ua.id);
    }
  }

  lemma LinkedSymmetric(edges: seq<Edge>, kind: Kind, a: Id, b: Id)
    requires Linked(edges, kind, a, b)
    ensures Linked(edges, kind, b, a)
  {
    var i :| 0 <= i < |edges| && Joins(edges[i], kind, a, b);
    assert Joins(edges[i], kind, b, a);
  }

  // ---------------------------------------------------------------- SELECT DISTINCT users.email

  /** The emails of the rows of `users` that satisfy `keep`, in table order. */
  function SelectEmails(users: seq<User>, keep: User -> bool): (r: seq<string>)
    ensures forall x :: x in r <==> exists u :: u in users && keep(u) && u.email == x
  {
    if |users| == 0 then []
    else
      assert forall u :: u in users <==> u == users[0] || u in users[1..];
      (if keep(users[0]) then [users[0].email] else []) + SelectEmails(users[1..], keep)
  }

  /** Two filters that agree on every row select the same emails. */
  lemma SelectEmailsExtensional(users: seq<User>, keep: User -> bool, keep': User -> bool)
    requires forall u :: keep(u) == keep'(u)
    ensures SelectEmails(users, keep) == SelectEmails(users, keep')
  {
  }

  /** `SELECT DISTINCT users.email FROM users WHERE keep`. */
  function SelectDistinctEmails(users: seq<User>, keep: User -> bool): (r: seq<string>)
    ensures NoDup(r)
    ensures forall x :: x in r <==> exists u :: u in users && keep(u) && u.email == x
  {
    Dedup(SelectEmails(users, keep))
  }

  // ---------------------------------------------------------------- common friends

  /** `GetCommonFriends(users)`: the distinct emails of the accounts that are friends of both
      `a` and `b`. */
  function GetCommonFriends(users: seq<User>, edges: seq<Edge>, a: Id, b: Id, io: Io): (r: Result<seq<string>, Error>)
    ensures r.Failure? <==> io == Fails
    ensures r.Failure? ==> r.error == Wrapped("failed to query common friends", DbFailure)
    ensures r.Success? ==> NoDup(r.value)
    ensures r.Success? ==> forall x :: x in r.value <==>
      exists u :: u in users && u.email == x && Linked(edges, Friend, a, u.id) && Linked(edges, Friend, b, u.id)
  {
    if io == Fails then Failure(Wrapped("failed to query common friends", DbFailure))
    else
      var fa := FriendIds(edges, a);
      var fb := FriendIds(edges, b);
      Success(SelectDistinctEmails(users, (u: User) => u.id in fa && u.id in fb))
  }

  /** Common friends do not depend on the order of the two users. */
  lemma CommonFriendsSymmetric(users: seq<User>, edges: seq<Edge>, a: Id, b: Id, io: Io)
    ensures GetCommonFriends(users, edges, a, b, io).Success? <==> GetCommonFriends(users, edges, b, a, io).Success?
    ensures GetCommonFriends(users, edges, a, b, io).Success? ==>
      forall x :: x in GetCommonFriends(users, edges, a, b, io).value <==> x in GetCommonFriends(users, edges, b, a, io).value
  {
  }

  /** Common friends are the intersection of the two friend lists `GetFriends` returns. */
  lemma {:induction false} CommonFriendsIsIntersection(users: seq<User>, edges: seq<Edge>, ua: User, ub: User, io: Io)
    requires ValidUsers(users)
    requires ua in users && ub in users
    requires GetFriends(users, edges, ua.email, io).Success?
    requires GetFriends(users, edges, ub.email, io).Success?
    ensures GetCommonFriends(users, edges, ua.id, ub.id, io).Success?
    ensures forall x :: x in GetCommonFriends(users, edges, ua.id, ub.id, io).value <==>
      x in GetFriends(users, edges, ua.email, io).value && x in GetFriends(users, edges, ub.email, io).value
  {
    var fa := GetFriends(users, edges, ua.email, io).value;
    var fb := GetFriends(users, edges, ub.email, io).value;
    var common := GetCommonFriends(users, edges, ua.id, ub.id, io).value;
    FindByEmailOfRow(users, ua);
    FindByEmailOfRow(users, ub);
    forall x
      ensures x in common <==> x in fa && x in fb
    {
      if x in fa && x in fb {
        var v :| v in users && v.email == x && Linked(edges, Friend, ua.id, v.id);
        var w :| w in users && w.email == x && Linked(edges, Friend, ub.id, w.id);
        SameEmailSameRow(users, v, w);
      }
    }
  }

  lemma FindByEmailOfRow(users: seq<User>, u: User)
    requires ValidUsers(users)
    requires u in users
    ensures FindByEmail(users, u.email) == Some(u)
  {
    SameEmailSameRow(users, u, FindByEmail(users, u.email).value);
  }

  lemma SameEmailSameRow(users: seq<User>, v: User, w: User)
    requires ValidUsers(users)
    requires v in users && w in users && v.email == w.email
    ensures v == w
  {
    var i :| 0 <= i < |users| && users[i] == v;
    var j :| 0 <= j < |users| && users[j] == w;
    assert i == j;
  }

  // ---------------------------------------------------------------- recipients

  /** The sender's update fan-out rule: a registered account other than the sender that is a
      friend of the sender or subscribes to the sender, and that the sender has not blocked. */
  predicate Eligible(edges: seq<Edge>, sender: Id, u: Id)
  {
    && u != sender
    && !Directed(edges, Block, sender, u)
    && (Linked(edges, Friend, u, sender) || Directed(edges, Subscribe, u, sender))
  }

  /** `GetUpdatableEmailAddresses(sender_id)`: the distinct emails of the eligible accounts. */
  function GetRecipients(users: seq<User>, edges: seq<Edge>, sender: Id, io: Io): (r: Result<seq<string>, Error>)
    ensures r.Failure? <==> io == Fails
    ensures r.Failure? ==> r.error == Annotated("failed to get recipients", DbFailure)
    ensures r.Success? ==> NoDup(r.value)
    ensures r.Success? ==> forall x :: x in r.value <==>
      exists u :: u in users && u.email == x
        && u.id != sender
        && Edge(sender, u.id, Block) !in edges
        && (Linked(edges, Friend, u.id, sender) || Edge(u.id, sender, Subscribe) in edges)
  {
    if io == Fails then Failure(Annotated("failed to get recipients", DbFailure))
    else Success(SelectDistinctEmails(users, (u: User) => Eligible(edges, sender, u.id)))
  }

  /** Appending a Block edge changes no Friend link. */
  lemma BlockAddsNoFriend(edges: seq<Edge>, from: Id, to: Id, a: Id, b: Id)
    ensures Linked(edges + [Edge(from, to, Block)], Friend, a, b) <==> Linked(edges, Friend, a, b)
  {
    var more := edges + [Edge(from, to, Block)];
    LinkedLast(more, Friend, a, b);
    assert more[..|more| - 1] == edges;
  }

  /** The block filter only looks at blocks the sender made: an account that blocks the sender
      keeps receiving the sender's updates if it is a friend or a subscriber. */
  lemma BlockByRecipientIgnored(users: seq<User>, edges: seq<Edge>, sender: Id, u: Id, io: Io)
    requires u != sender
    ensures GetRecipients(users, edges + [Edge(u, sender, Block)], sender, io) == GetRecipients(users, edges, sender, io)
  {
    var more := edges + [Edge(u, sender, Block)];
    forall w: User
      ensures Eligible(more, sender, w.id) == Eligible(edges, sender, w.id)
    {
      BlockAddsNoFriend(edges, u, sender, w.id, sender);
    }
    SelectEmailsExtensional(users, (w: User) => Eligible(more, sender, w.id), (w: User) => Eligible(edges, sender, w.id));
  }
}

=== FILE: wrappers.dfy ===
/** Failure-carrying results and the error values the relationship core produces. */
module Wrappers {

  datatype Option<+T> = None | Some(value: T)

  /** A Go `(value, error)` pair where exactly one side is meaningful. */
  datatype Result<+T, +E> = Success(value: T) | Failure(error: E)

  /** The errors the core returns. `Wrapped` is `fmt.Errorf("<context>: %w", cause)`, which
      `errors.Is` sees through; `Annotated` is the `%v` form, which it does not. */
  datatype Error =
    | BadRequest(message: string)   // 400 response error
    | NotFound(message: string)     // 404 response error
    | Wrapped(context: string, cause: Error)
    | Annotated(context: string, cause: Error)
    | NoRows                        // sql.ErrNoRows
    | DbFailure                     // any other database driver error
    | Panic(message: string)        // a Go runtime panic

  /** `errors.Is(e, target)`: follows `%w` wrapping only. */
  predicate Is(e: Error, target: Error)
  {
    e == target || (e.Wrapped? && Is(e.cause, target))
  }
}
